=== FILE: README.md ===
# gm-project: the logic beneath the screens, in Dafny

This project models the sequential logic of the gm-project tools.

The front end has several parts:

- a document-ingestion form that submits a directory and polls the backend's progress;
- two chat screens, the full page and the card, that keep an append-only transcript;
- the image thumbnails and enlarged view under a chat answer;
- a YouTube sentiment analyzer that extracts a video id, posts the analysis and derives key highlights and an overall label;
- the sentiment timeline chart;
- a mock analyzer card with its own labelling rule;
- the examples page, which hands a prompt or a URL to another page through session storage.

The Python backend has two parts:

- the sentence chunker `split_text`;
- the question endpoint `query_bot`, which assembles the context and the sources text.

Each source file is one Dafny module:

| source | module | form |
|---|---|---|
| gm-tools/components/DirectorySelector.tsx | `DirectorySelector` (class `Selector`) | state machine; the polling interval is a loop over the replies |
| gm-tools/components/chat-interface.tsx | `ChatInterface` (class `Session`) | transcript class plus pure normalisation functions |
| gm-tools/components/chat-panel.tsx | `ChatPanel` (class `Session`) | the same, with the card's own rules |
| gm-tools/components/MiniImages.tsx | `MiniImages` (class `Gallery`) | pure URL and caption composition plus the open-index state |
| gm-tools/components/video-analyzer.tsx | `YoutubeId`, `VideoAnalyzer` (class `Analyzer`) | pure extraction, filter and label plus the page state |
| gm-tools/components/sentiment-timeline.tsx | `SentimentTimeline` | pure |
| gm-tools/components/video-analyzer-panel.tsx | `VideoAnalyzerPanel` (class `Panel`) | flag state machine plus a pure label |
| gm-tools/components/example-prompts.tsx | `ExamplePrompts` (class `Grid`) | constant table, click dispatch, hover state |
| CHATBOT_BP/modules/retriever.py | `Retriever` | the loop as a method, proved against a packing function |
| CHATBOT_BP/app.py | `ChatEndpoint` | the loop as a method, with the embedder, store and model as parameters |

There are also four helper modules:

- `Options` holds the optional value.
- `Strings` holds JavaScript `trim`, `includes`, `startsWith`, ASCII lower-casing and decimal rendering.
- `PyText` holds Python `str.split()` and `str.strip()`.
- `ChatReply` holds the outcome of one chat request, which both chat screens share.

Effects are modelled as follows:

- **Asynchronous handlers** are split at their `await`. One method is the synchronous part. A second method is the continuation, which is fed the settled reply. The reply is a datatype that includes the thrown case.
- **Browser and network effects** are parameters or recorded outcomes. This covers `fetch`, `sessionStorage`, the router, `alert` and `Math.random`. Session storage is a `map<string, string>`, and a navigation is the route returned.
- **Timers** are single events. A poll tick is one call, and so is the mock card's timer firing.
- **`Date.now()`** identifiers are integers supplied by the caller.

Four behaviours of the code are easy to miss. The model follows the code in each:

- The progress value is copied without any clamping.
- There is no polling timeout.
- The "0 files" test is a plain substring test, so "10 files" is also rejected.
- A thrown submit request is not caught, so the form stays loading.

## Model

| member | source | states |
|---|---|---|
| DirectorySelector.Classify | gm-tools/components/DirectorySelector.tsx:19-24 | A submit reply is rejected exactly when the status is not OK, or the status is OK and the message contains "0 files". The handler is stuck on a thrown request, and on an OK reply without a message. |
| DirectorySelector.TenFilesRejected | gm-tools/components/DirectorySelector.tsx:20 | The substring test rejects an OK reply reporting "Processed 10 files". |
| DirectorySelector.FirstDone | gm-tools/components/DirectorySelector.tsx:35-36 | This is the position of the first poll reply that reports completion: every earlier one does not, and that one does. |
| DirectorySelector.LastProgress | gm-tools/components/DirectorySelector.tsx:28-30 | The progress shown is the starting value or the value of some reply that arrived. |
| DirectorySelector.LastProgressIsLastArrived | gm-tools/components/DirectorySelector.tsx:28-30 | The progress shown is exactly the value of the last reply that arrived, with no clamping or monotonicity. |
| DirectorySelector.LastProgressNoneArrived | gm-tools/components/DirectorySelector.tsx:27-30 | When no poll reply arrived, the progress keeps its earlier value. It is not reset when a run starts. |
| DirectorySelector.ProgressMayDecrease | gm-tools/components/DirectorySelector.tsx:30 | A later, smaller value replaces a larger one, and 150 is shown as it is. |
| DirectorySelector.Selector.constructor | gm-tools/components/DirectorySelector.tsx:5-8 | The form starts with an empty path and message, progress 0, and idle. |
| DirectorySelector.Selector.SetPath | gm-tools/components/DirectorySelector.tsx:49-52 | Typing changes the path only while the form is not loading. |
| DirectorySelector.Selector.Click | gm-tools/components/DirectorySelector.tsx:10-18 | The path is posted exactly when the button is enabled, which is when the form is not loading and the path is non-empty (line 57). The form then loads and shows the processing message, and the progress keeps its old value. |
| DirectorySelector.Selector.OnSubmitReply | gm-tools/components/DirectorySelector.tsx:19-27 | A rejected reply stops loading, shows the not-found message and starts no polling. An accepted reply starts polling. A stuck handler leaves the form loading. |
| DirectorySelector.Selector.Tick | gm-tools/components/DirectorySelector.tsx:27-41 | A reply sets the progress to the backend's value. A done reply stops polling and loading, shows "¡Listo!" and notifies the page once. Any other tick changes neither loading nor the message. |
| DirectorySelector.Selector.RunPolling | gm-tools/components/DirectorySelector.tsx:27-41 | Fed a sequence of replies, the interval stops right after the first done reply and never before it. The page is notified at most once. The progress is that of the last reply that arrived. |
| ChatInterface.LiftAll | gm-tools/components/chat-interface.tsx:68-72 | The lifted list has the same length and order, item by item. |
| ChatInterface.NormalizeImages | gm-tools/components/chat-interface.tsx:67-73 | A missing array gives []. Otherwise a bare path becomes {src, "", no page} and a record passes unchanged, position by position. |
| ChatInterface.NormalizeRecords | gm-tools/components/chat-interface.tsx:68-72 | A list of records normalises to itself. |
| ChatInterface.AnswerContent | gm-tools/components/chat-interface.tsx:78 | The content is never empty. It is the answer when that is a non-empty string, else the fallback text. |
| ChatInterface.StatusPrefix | gm-tools/components/chat-interface.tsx:61 | The thrown message starts "Error ", then the rendered status, then ": ". |
| ChatInterface.ErrorMessage | gm-tools/components/chat-interface.tsx:60-87 | A thrown error keeps its own message. A non-OK status gives the status prefix followed by the status text. |
| ChatInterface.BotTurn | gm-tools/components/chat-interface.tsx:75-90 | A success turn carries the answer content, the sources as sent and the normalised images. A failure turn carries "Error: " and the message, with no sources or images. |
| ChatInterface.ErrorTurns | gm-tools/components/chat-interface.tsx:84-90 | Every failed request shows as a turn starting with "Error: ". |
| ChatInterface.BotTurnShowsImages | gm-tools/components/chat-interface.tsx:134 | An assistant turn shows thumbnails exactly when the reply was OK and its `images` array is present and non-empty. A failure turn never shows any. |
| ChatInterface.StatusErrorTurn | gm-tools/components/chat-interface.tsx:60-88 | A non-OK status shows as "Error: Error <status>: …". |
| ChatInterface.DisplayedSources | gm-tools/components/chat-interface.tsx:140-144 | Only assistant turns list sources, and only the first three, in order. |
| ChatInterface.Session.constructor | gm-tools/components/chat-interface.tsx:20-32 | The transcript is the greeting alone, and the input is empty and idle. |
| ChatInterface.Session.Type | gm-tools/components/chat-interface.tsx:218-221 | Typing changes the input only while no question is in flight. |
| ChatInterface.Session.Send | gm-tools/components/chat-interface.tsx:44-51 | Sending does nothing for a blank input or while typing. Otherwise it appends exactly the user turn, clears the input, raises the flag and posts the original input. |
| ChatInterface.Session.Receive | gm-tools/components/chat-interface.tsx:53-94 | Exactly one assistant turn is appended for the reply. The flag is lowered on every outcome. |
| ChatInterface.Session.HandleSendMessage | gm-tools/components/chat-interface.tsx:44-95 | An accepted question grows the transcript by exactly the user turn and one assistant turn, and earlier turns are kept. |
| ChatPanel.AnswerContent | gm-tools/components/chat-panel.tsx:58 | The content is the trimmed answer when that is non-empty, else the fallback. It is never empty and never starts or ends with white space. |
| ChatPanel.OrEmpty | gm-tools/components/chat-panel.tsx:59-60 | A missing list becomes [], and a present one is passed through unchanged. |
| ChatPanel.BotTurn | gm-tools/components/chat-panel.tsx:55-70 | A success turn carries the lists as sent, with string images not lifted. Every failure gives the fixed error text. |
| ChatPanel.DisplayedSources | gm-tools/components/chat-panel.tsx:121-124 | Every source is listed, without truncation. |
| ChatPanel.SourcesDiffer | gm-tools/components/chat-panel.tsx:121-124 | For more than three sources, the card lists them all where the full page lists three. |
| ChatPanel.ErrorsDiffer | gm-tools/components/chat-panel.tsx:64-70 | A thrown request shows the fixed text on the card and "Error: " plus the message on the full page. |
| ChatPanel.TrimDiffers | gm-tools/components/chat-panel.tsx:58 | An answer with leading white space is shown differently by the card and by the full page. |
| ChatPanel.Session.constructor | gm-tools/components/chat-panel.tsx:20-27 | The transcript is the card's greeting alone. |
| ChatPanel.Session.Type | gm-tools/components/chat-panel.tsx:160-165 | Typing changes the input only while no question is in flight. |
| ChatPanel.Session.Send | gm-tools/components/chat-panel.tsx:34-41 | The handler refuses only a blank input. While typing it is a no-op only because the input was cleared. |
| ChatPanel.Session.Receive | gm-tools/components/chat-panel.tsx:43-73 | Exactly one bot turn is appended, and the flag is lowered on every path. |
| ChatPanel.Session.HandleSendMessage | gm-tools/components/chat-panel.tsx:34-74 | An accepted question adds exactly the user turn and one bot turn. |
| MiniImages.ImageUrl | gm-tools/components/MiniImages.tsx:26 | The address is the origin and one '/' followed by the path. The path ends the address, and no second '/' is added. |
| MiniImages.ImageUrlSlash | gm-tools/components/MiniImages.tsx:26 | A path with or without a leading '/' resolves to the same address. |
| MiniImages.ImageUrlInjective | gm-tools/components/MiniImages.tsx:65 | Distinct rooted paths give distinct addresses. |
| MiniImages.PageNote | gm-tools/components/MiniImages.tsx:40 | The page note is empty exactly when there is no page, and it is "0" for page 0. |
| MiniImages.ThumbCaption | gm-tools/components/MiniImages.tsx:40 | The thumbnail caption is the source directly followed by the page note; `CaptionCases` gives its forms. |
| MiniImages.ModalCaption | gm-tools/components/MiniImages.tsx:74 | The enlarged caption is the source, a space, then the page note without its leading space. |
| MiniImages.CaptionCases | gm-tools/components/MiniImages.tsx:40 | The caption is the source alone exactly when there is no page, and "source (p. N)" for a non-zero page. Page 0 renders a "0". |
| MiniImages.ThumbsFrom | gm-tools/components/MiniImages.tsx:23-43 | There is one thumbnail per image from a position on, each with its own index. |
| MiniImages.Thumbnails | gm-tools/components/MiniImages.tsx:13-23 | Nothing is rendered exactly for an empty list. Otherwise there is one thumbnail per image, in input order. |
| MiniImages.Gallery.constructor | gm-tools/components/MiniImages.tsx:10-11 | The gallery mounts with nothing enlarged. |
| MiniImages.Gallery.Modal | gm-tools/components/MiniImages.tsx:47-75 | The enlarged view shows exactly when an index is open and an image exists there, with that image's address and caption. |
| MiniImages.Gallery.ClickThumbnail | gm-tools/components/MiniImages.tsx:37 | Clicking thumbnail idx enlarges that image. |
| MiniImages.Gallery.ClickOverlay | gm-tools/components/MiniImages.tsx:58 | Clicking the overlay closes the view. |
| MiniImages.Gallery.ClickClose | gm-tools/components/MiniImages.tsx:81 | The close button closes the view. |
| MiniImages.Gallery.ClickModalBody | gm-tools/components/MiniImages.tsx:62 | A click inside the view leaves it open. |
| MiniImages.Gallery.SetImages | gm-tools/components/MiniImages.tsx:10-11 | New images keep the open index, which may then point past the end. |
| YoutubeId.ExtractYoutubeIdSpec | gm-tools/components/video-analyzer.tsx:53-57 | An id is returned exactly when the regular expression matches and its second group has 11 characters. The id is that group, for the greedy (right-most) marker, and it contains no '#', '&' or '?'. |
| YoutubeId.ExtractYoutubeId | gm-tools/components/video-analyzer.tsx:53-57 | An extracted id has 11 characters, none of them '#', '&' or '?'. |
| YoutubeId.FirstLineTerminator | gm-tools/components/video-analyzer.tsx:54 | `.` stops at the first line terminator, or runs to the end of the URL. |
| YoutubeId.MarkerLen | gm-tools/components/video-analyzer.tsx:54 | A marker length found is one the alternatives of the pattern match at that position. |
| YoutubeId.FindMarker | gm-tools/components/video-analyzer.tsx:54 | A marker found lies at or before the bound and matches there. |
| YoutubeId.RunEnd | gm-tools/components/video-analyzer.tsx:54 | `[^#&?]*` stops at the first '#', '&' or '?', or at the end. |
| YoutubeId.MarkerLenComplete | gm-tools/components/video-analyzer.tsx:54 | Whichever alternative matches at a position, the ordered test finds it. |
| YoutubeId.MarkerLenStart | gm-tools/components/video-analyzer.tsx:54 | An alternative starts only at y, v/, u, e, wa or &. |
| YoutubeId.FindMarkerRightmost | gm-tools/components/video-analyzer.tsx:54 | Backtracking finds the right-most marker. No marker after it matches, and none matches at all when none is found. |
| YoutubeId.FindMarkerSkip | gm-tools/components/video-analyzer.tsx:54 | Backtracking stops at the first marker from the right. |
| YoutubeId.FirstLineTerminatorFirst | gm-tools/components/video-analyzer.tsx:54 | `^.*` crosses no line terminator. |
| YoutubeId.MatchBeforeTerminator | gm-tools/components/video-analyzer.tsx:54 | No match starts after the first line terminator. |
| YoutubeId.NoMarkerNoMatch | gm-tools/components/video-analyzer.tsx:54-56 | When no marker is found, the pattern does not match. |
| YoutubeId.MarkerIsChosen | gm-tools/components/video-analyzer.tsx:54-56 | The marker found is the match the pattern settles on, and the only one. |
| YoutubeId.RunEndRun | gm-tools/components/video-analyzer.tsx:54 | The captured group holds no '#', '&' or '?', and it stops at one of them or at the end. |
| YoutubeId.ExtractFrom | gm-tools/components/video-analyzer.tsx:53-57 | An 11-character run after the right-most marker of a one-line URL is the extracted id. |
| YoutubeId.ThumbnailUrl | gm-tools/components/video-analyzer.tsx:49 | The thumbnail address is the image host, the id and "/mqdefault.jpg". |
| VideoAnalyzer.Highlights | gm-tools/components/video-analyzer.tsx:78-88 | Every highlight passes the test and comes from the timeline, with its lower-cased sentiment. There are at most as many highlights as items. |
| VideoAnalyzer.IsHighlight | gm-tools/components/video-analyzer.tsx:79-83 | A highlight has a value of at least 95 or at most 25. An item with a missing value, word or sentiment is never a highlight. |
| VideoAnalyzer.HighlightsSelect | gm-tools/components/video-analyzer.tsx:78-88 | The highlights are exactly the order-preserving subsequence of the items that pass the test. |
| VideoAnalyzer.HighlightsAppend | gm-tools/components/video-analyzer.tsx:79-87 | Filtering a joined timeline filters each part in turn. |
| VideoAnalyzer.HighlightDescriptions | gm-tools/components/video-analyzer.tsx:303-316 | Every highlight carries one of the three labels. The neutral text is shown exactly for "neutral". |
| VideoAnalyzer.HighlightDescription | gm-tools/components/video-analyzer.tsx:307-316 | "positivo" is described as strong positive sentiment and "negativo" as significant negative sentiment. Every other label gets the neutral text. The three texts are distinct. |
| VideoAnalyzer.OverallLabelIsFirstMaximum | gm-tools/components/video-analyzer.tsx:209-213 | The label has the largest share. Ties go to Positive, then Negative. |
| VideoAnalyzer.OverallLabel | gm-tools/components/video-analyzer.tsx:209-213 | The share of the chosen label is at least each of the three shares. |
| VideoAnalyzer.SummaryOf | gm-tools/components/video-analyzer.tsx:77 | The summary is never empty. It is `resumen` unless that is missing or empty. |
| VideoAnalyzer.Decide | gm-tools/components/video-analyzer.tsx:39-51 | A blank URL or a running analysis is ignored. A URL without an id is refused. Otherwise the URL is posted with the thumbnail of its id. |
| VideoAnalyzer.Analyzer.constructor | gm-tools/components/video-analyzer.tsx:14-26 | The page starts with every field at its initial value. |
| VideoAnalyzer.Analyzer.ShownLabel | gm-tools/components/video-analyzer.tsx:196-213 | A label is shown exactly when the analysis is complete, and it is the overall label. |
| VideoAnalyzer.Analyzer.ConsumeExampleUrl | gm-tools/components/video-analyzer.tsx:29-37 | A non-empty stored example URL is copied into the box and removed. Otherwise nothing changes. Only the URL box may change, so a previous analysis is kept. |
| VideoAnalyzer.Analyzer.SetUrl | gm-tools/components/video-analyzer.tsx:124-140 | Typing changes the URL only while the form is shown. Only the URL may change, so the title, counts, timeline, summary and highlights are kept. |
| VideoAnalyzer.Analyzer.Submit | gm-tools/components/video-analyzer.tsx:39-62 | The page does what `Decide` says. A post sets the thumbnail, starts the analysis at progress 10 and marks it not complete. Anything else changes nothing. |
| VideoAnalyzer.Analyzer.OnReply | gm-tools/components/video-analyzer.tsx:59-103 | A body sets missing counts to 0, the timeline to [] when missing, the summary and the highlights, and completes the analysis at 100. A thrown request alerts, stops the analysis at 0 and keeps the other data. |
| VideoAnalyzer.Analyzer.Complete | gm-tools/components/video-analyzer.tsx:73-95 | The results are stored and the analysis is complete at progress 100. |
| VideoAnalyzer.Analyzer.Fail | gm-tools/components/video-analyzer.tsx:98-103 | The analysis stops with progress 0. |
| VideoAnalyzer.Analyzer.Reset | gm-tools/components/video-analyzer.tsx:107-114 | The URL, title, thumbnail, flags and progress are cleared. The counts, timeline, summary and highlights are kept. |
| SentimentTimeline.ChartData | gm-tools/components/sentiment-timeline.tsx:17-21 | Length, order, time and sentiment are kept. The value is negated exactly for sentiment "negative". |
| SentimentTimeline.ChartDataInvolution | gm-tools/components/sentiment-timeline.tsx:17-21 | Transforming twice gives the input back. |
| SentimentTimeline.ChartDataAppend | gm-tools/components/sentiment-timeline.tsx:17-21 | The transform is a map: it distributes over concatenation. |
| SentimentTimeline.TooltipSentiment | gm-tools/components/sentiment-timeline.tsx:27 | The word is Positive for v > 50, Neutral for 0 < v <= 50 and Negative for v <= 0. |
| SentimentTimeline.WordAndColour | gm-tools/components/sentiment-timeline.tsx:27-32 | The word and the colour agree for every v except 0, which is blue while its word is Negative. |
| SentimentTimeline.ValueColour | gm-tools/components/sentiment-timeline.tsx:63 | Green exactly above 50, red exactly below 0, blue exactly from 0 to 50. |
| SentimentTimeline.NegativePointsReadNegative | gm-tools/components/sentiment-timeline.tsx:19-27 | A "negative" point with a non-negative value reads Negative. |
| SentimentTimeline.Tooltip | gm-tools/components/sentiment-timeline.tsx:24-39 | The tooltip renders only when active with a non-empty payload, and then describes the first value. |
| SentimentTimeline.TickLabel | gm-tools/components/sentiment-timeline.tsx:51-54 | The tick label is "Neutral" at 0 and the magnitude elsewhere. |
| SentimentTimeline.AxisLabels | gm-tools/components/sentiment-timeline.tsx:50-54 | The axis reads 75, 50, 25, Neutral, 25, 50, 75. |
| SentimentTimeline.TickLabelsSymmetric | gm-tools/components/sentiment-timeline.tsx:51-54 | Opposite ticks have the same label, and only 0 reads "Neutral". |
| VideoAnalyzerPanel.MockShares | gm-tools/components/video-analyzer-panel.tsx:57-61 | The mock shares lie in [20,79], [10,49] and [0,29]. |
| VideoAnalyzerPanel.PanelLabel | gm-tools/components/video-analyzer-panel.tsx:165 | Positive exactly above 60 percent positive. Otherwise Negative exactly above 30 percent negative, and Neutral in every other case. |
| VideoAnalyzerPanel.NegativeUnreachable | gm-tools/components/video-analyzer-panel.tsx:165 | No breakdown in the mock ranges is labelled Negative. The label is Positive exactly above 60. |
| VideoAnalyzerPanel.LabelsDiffer | gm-tools/components/video-analyzer-panel.tsx:165 | The card and the analyzer page label the same shares differently. |
| VideoAnalyzerPanel.Panel.constructor | gm-tools/components/video-analyzer-panel.tsx:16-25 | The card starts with no video, both flags down and shares 65/25/10. |
| VideoAnalyzerPanel.Panel.ShownLabel | gm-tools/components/video-analyzer-panel.tsx:82-165 | The label is shown exactly when an analysis is complete and the video choice is hidden. The results belong to the view of a chosen video, not to the choice. |
| VideoAnalyzerPanel.Panel.NeverNegative | gm-tools/components/video-analyzer-panel.tsx:159-165 | The card never shows Negative. |
| VideoAnalyzerPanel.Panel.ResetAnalysis | gm-tools/components/video-analyzer-panel.tsx:44-47 | Both flags are lowered and nothing else changes. |
| VideoAnalyzerPanel.Panel.UploadFile | gm-tools/components/video-analyzer-panel.tsx:27-34 | A chosen file sets its name and lowers the flags. No file changes nothing. |
| VideoAnalyzerPanel.Panel.SetYoutubeUrl | gm-tools/components/video-analyzer-panel.tsx:82-117 | The link box changes only while the choice is shown, which is when neither a file nor a link is set. |
| VideoAnalyzerPanel.Panel.SubmitYoutube | gm-tools/components/video-analyzer-panel.tsx:36-42 | A link that is not blank lowers the flags. A blank one changes nothing. |
| VideoAnalyzerPanel.Panel.StartAnalysis | gm-tools/components/video-analyzer-panel.tsx:49-53 | The analysis runs and one more timer is pending. It is callable only where the button exists: a video is chosen and no analysis runs or is complete (lines 127 and 143). |
| VideoAnalyzerPanel.Panel.TimerFires | gm-tools/components/video-analyzer-panel.tsx:53-62 | The analysis stops, is complete and shows the mock shares. |
| VideoAnalyzerPanel.Panel.ClearVideo | gm-tools/components/video-analyzer-panel.tsx:65-71 | The video, the file name and the link are cleared, and both flags are lowered. |
| ExamplePrompts.CategoryCaption | gm-tools/components/example-prompts.tsx:88 | The caption is "Chatbot" exactly for chat cards, and "Video Analyzer" otherwise. |
| ExamplePrompts.Click | gm-tools/components/example-prompts.tsx:59-69 | A chat card with a prompt stores it and goes to /chat. An analyzer card with a URL stores it and goes to /analyzer. Any other card writes nothing and stays. |
| ExamplePrompts.ExamplesShape | gm-tools/components/example-prompts.tsx:16-53 | There are three chat cards with prompts and three analyzer cards with the demo URL, and every card navigates. |
| ExamplePrompts.DemoUrlNoLineTerminator | gm-tools/components/example-prompts.tsx:39 | The demo URL has no line terminator. |
| ExamplePrompts.DemoUrlNoLaterMarker | gm-tools/components/example-prompts.tsx:39 | No marker starts after "watch?v=". |
| ExamplePrompts.DemoUrlMarker | gm-tools/components/example-prompts.tsx:39 | The right-most marker is "watch?v=" at position 24. |
| ExamplePrompts.DemoUrlRun | gm-tools/components/example-prompts.tsx:39 | The group after the marker runs to the end and is the demo id. |
| ExamplePrompts.DemoUrlId | gm-tools/components/example-prompts.tsx:39 | The demo URL carries the 11-character id dQw4w9WgXcQ. |
| ExamplePrompts.DemoUrlAccepted | gm-tools/components/example-prompts.tsx:39 | The analyzer posts the demo URL with the thumbnail of its id. |
| ExamplePrompts.OpenAnalyzerExample | gm-tools/components/example-prompts.tsx:64-67 | Clicking an analyzer card, then opening the analyzer and submitting, posts the demo URL and leaves "exampleUrl" removed. |
| ExamplePrompts.Grid.constructor | gm-tools/components/example-prompts.tsx:57 | No card is hovered. |
| ExamplePrompts.Grid.MouseEnter | gm-tools/components/example-prompts.tsx:80 | The entered card becomes the only highlighted one. |
| ExamplePrompts.Grid.MouseLeave | gm-tools/components/example-prompts.tsx:81 | No card is highlighted. |
| Retriever.SplitText | CHATBOT_BP/modules/retriever.py:4-16 | The loop returns exactly the chunks of the greedy packing. |
| Retriever.SplitTextDefault | CHATBOT_BP/modules/retriever.py:3 | Called without a limit, `split_text` returns the chunks of the greedy packing under 500 words. |
| Retriever.Pack | CHATBOT_BP/modules/retriever.py:7-15 | The greedy packing that the loop is proved against. Its properties are `PackCount`, `PackFlatten`, `PackShape`, `PackSmallGroups` and `PackMaximal`. |
| Retriever.PackCount | CHATBOT_BP/modules/retriever.py:8-15 | There is at most one group more than there are sentences, and at least one group when there is a sentence or an open group. |
| Retriever.Groups | CHATBOT_BP/modules/retriever.py:5-15 | A text has at least one group, and at most one more than its sentences. |
| Retriever.Chunks | CHATBOT_BP/modules/retriever.py:4-16 | `split_text` returns at least one chunk, and at most one more than there are sentences. |
| Retriever.NextSplit | CHATBOT_BP/modules/retriever.py:5 | The split point found is a terminator followed by a space, at or after the given position, when there is one. |
| Retriever.SpaceRunEnd | CHATBOT_BP/modules/retriever.py:5 | The separator ends at the first non-space character after the run, or at the end of the text. |
| Retriever.Sentences | CHATBOT_BP/modules/retriever.py:5 | `re.split` always yields at least one piece. |
| Retriever.NextSplitFirst | CHATBOT_BP/modules/retriever.py:5 | The separator found is the first one. |
| Retriever.SpaceRunEndRun | CHATBOT_BP/modules/retriever.py:5 | The separator takes the whole run of spaces. |
| Retriever.SeparatorIsSpace | CHATBOT_BP/modules/retriever.py:5 | A separator is a non-empty run of white space. |
| Retriever.SentencesUnsplit | CHATBOT_BP/modules/retriever.py:5 | No sentence contains a separator, and every sentence but the last ends with '.', '!' or '?'. |
| Retriever.SentencesHaveNoSeparator | CHATBOT_BP/modules/retriever.py:5 | No sentence contains a separator. |
| Retriever.SentencesEndWithTerminator | CHATBOT_BP/modules/retriever.py:5 | Every sentence but the last ends with a terminator. |
| Retriever.SentencesWords | CHATBOT_BP/modules/retriever.py:5 | Splitting into sentences loses and adds no word. |
| Retriever.SentencesOfEmpty | CHATBOT_BP/modules/retriever.py:5 | The empty text is one empty sentence. |
| Retriever.ExtendStep | CHATBOT_BP/modules/retriever.py:9-10 | A sentence that fits joins the open group, and its string grows by the sentence and a space. |
| Retriever.CloseStep | CHATBOT_BP/modules/retriever.py:11-13 | A sentence that does not fit emits the stripped open group and opens the next one. |
| Retriever.PackClose | CHATBOT_BP/modules/retriever.py:11-13 | A sentence that does not fit closes the open group. |
| Retriever.CandidateWords | CHATBOT_BP/modules/retriever.py:9 | The words counted are the group's words followed by the sentence's. |
| Retriever.JoinSpWords | CHATBOT_BP/modules/retriever.py:10 | The open string has exactly the words of its sentences. |
| Retriever.JoinSpEmpty | CHATBOT_BP/modules/retriever.py:14 | The open string is empty only for an empty group, and otherwise ends with a space. |
| Retriever.FlatWordsPrefix | CHATBOT_BP/modules/retriever.py:9 | A prefix of a group has no more words than the group. |
| Retriever.PackFlatten | CHATBOT_BP/modules/retriever.py:8-15 | The groups are consecutive pieces of the sentences: none is lost, repeated or reordered. |
| Retriever.PackShape | CHATBOT_BP/modules/retriever.py:7-15 | Only the first group can be empty, and it is empty exactly when the first sentence alone reaches the limit. |
| Retriever.PackSmallGroups | CHATBOT_BP/modules/retriever.py:9-13 | A group of two or more sentences has fewer words than the limit. |
| Retriever.PackMaximal | CHATBOT_BP/modules/retriever.py:9-13 | A group is closed only because the next sentence would reach the limit. |
| Retriever.Render | CHATBOT_BP/modules/retriever.py:12-15 | There is one chunk per group. |
| Retriever.RenderAt | CHATBOT_BP/modules/retriever.py:12 | Chunk k is group k's string, stripped. |
| Retriever.ChunkWords | CHATBOT_BP/modules/retriever.py:12-15 | Stripping a group's string keeps its words. |
| Retriever.RenderWords | CHATBOT_BP/modules/retriever.py:12-15 | The words of the chunks are the words of the grouped sentences. |
| Retriever.ChunksPreserveWords | CHATBOT_BP/modules/retriever.py:8-15 | The words of all chunks, in order, are the words of the text. |
| Retriever.ChunksShape | CHATBOT_BP/modules/retriever.py:12-16 | The result is never empty, and every chunk is stripped. |
| Retriever.LeadingEmptyChunk | CHATBOT_BP/modules/retriever.py:7-12 | A first sentence at or over the limit yields a leading "" chunk, and that sentence opens the second chunk. |
| Retriever.BigChunkIsOneSentence | CHATBOT_BP/modules/retriever.py:9-13 | A chunk at or over the limit holds at most one sentence. |
| Retriever.ChunksOfEmpty | CHATBOT_BP/modules/retriever.py:14-16 | Empty text with a positive limit gives [""]. |
| Retriever.ChunksOfEmptyNoLimit | CHATBOT_BP/modules/retriever.py:9-16 | Empty text with a limit of 0 or less gives ["", ""]. |
| PyText.WordsAppend | CHATBOT_BP/modules/retriever.py:9 | Splitting two texts joined at a space boundary splits each in turn. |
| PyText.WordsAroundSpace | CHATBOT_BP/modules/retriever.py:10 | White space between two texts separates their words. |
| PyText.WordsOfSpace | CHATBOT_BP/modules/retriever.py:9 | A white-space-only text has no words. |
| PyText.WordsStrip | CHATBOT_BP/modules/retriever.py:12 | Stripping keeps the words. |
| PyText.TokenLen | CHATBOT_BP/modules/retriever.py:9 | The first word's length is within the string, and positive when the string starts with a non-space. |
| PyText.Words | CHATBOT_BP/modules/retriever.py:9 | `str.split()`; `WordsAreTokens` states what its pieces are. |
| PyText.WordsAreTokens | CHATBOT_BP/modules/retriever.py:9 | Every piece `split()` returns is non-empty and contains no white space. |
| PyText.Strip | CHATBOT_BP/modules/retriever.py:12 | The result is an infix with only white space cut from either side, and white space at neither end. |
| PyText.StripStripped | CHATBOT_BP/modules/retriever.py:15 | Stripping a stripped string changes nothing. |
| ChatEndpoint.Status | CHATBOT_BP/app.py:37-38 | The status is 400 exactly for a refused question and 200 exactly for an answer. |
| ChatEndpoint.JoinAppend | CHATBOT_BP/app.py:43-47 | Accumulating over two runs of chunks accumulates each in turn. |
| ChatEndpoint.JoinInPlace | CHATBOT_BP/app.py:43-47 | Every chunk's entry appears in its retrieval position. |
| ChatEndpoint.ContextEntry | CHATBOT_BP/app.py:46 | The entry starts "[From <source>]: ", holds the chunk's text whole and ends the line. |
| ChatEndpoint.SourceEntry | CHATBOT_BP/app.py:47 | The paragraph starts "From <source>", a new line and an arrow, and ends with "..." and a blank line. |
| ChatEndpoint.Context | CHATBOT_BP/app.py:43-46 | The context is empty exactly when nothing was retrieved, and ends with the last chunk's entry. |
| ChatEndpoint.Sources | CHATBOT_BP/app.py:44-47 | The sources text is empty exactly when nothing was retrieved, and ends with the last chunk's paragraph. |
| ChatEndpoint.SourceEntryExcerpt | CHATBOT_BP/app.py:47 | The excerpt is the whole text up to 300 characters, else its first 300. "..." always follows. |
| ChatEndpoint.QueryBot | CHATBOT_BP/app.py:33-54 | A missing or empty question gives 400 with no call. Otherwise embed, search with top 5, then ask the model with the context. The answer is returned unchanged, with the sources as one string. |
| Strings.BlankIffTrimEmpty | gm-tools/components/chat-interface.tsx:46 | A string is blank exactly when it trims to "". |
| Strings.IsBlank | gm-tools/components/chat-interface.tsx:46 | `!s.trim()`, defined as every character being white space; `BlankIffTrimEmpty` ties it to trimming. |
| Strings.Trim | gm-tools/components/chat-panel.tsx:58 | `trim()` gives an infix with only white space cut from either side, and white space at neither end. |
| Strings.TrimBoth | gm-tools/components/chat-panel.tsx:58 | Trimming gives an infix with white space only around it, and white space at neither end. |
| Strings.TrimLeft | gm-tools/components/chat-panel.tsx:58 | Trimming the start removes exactly the leading white space and leaves a suffix. |
| Strings.TrimRight | gm-tools/components/chat-panel.tsx:58 | Trimming the end removes exactly the trailing white space and leaves a prefix. |
| Strings.ContainsIff | gm-tools/components/DirectorySelector.tsx:20 | The substring test holds exactly when the text occurs at some offset. |
| Strings.ContainsAt | gm-tools/components/DirectorySelector.tsx:20 | An occurrence at an offset makes the test true. |
| Strings.Contains | gm-tools/components/DirectorySelector.tsx:20 | `includes`, defined recursively; `ContainsIff` ties it to an occurrence at some offset. |
| Strings.StartsWith | gm-tools/components/MiniImages.tsx:26 | `startsWith`: the string's prefix of the pattern's length is the pattern. |
| Strings.Lower | gm-tools/components/video-analyzer.tsx:83 | Lower-casing keeps the length and lower-cases each character. |
| Strings.Take | gm-tools/components/chat-interface.tsx:144 | `slice(0, n)` gives the prefix of length min(n, length). |
| Strings.IntToString | gm-tools/components/chat-interface.tsx:61 | A negative number renders as '-' followed by digits that read back as its magnitude. Any other number renders as digits that read back as the number. There is never a leading zero, except in "0" itself. |
| Strings.NatToString | gm-tools/components/sentiment-timeline.tsx:53 | The rendering is digits only, with no leading zero, and reads back as the number. |

## Left out

- JSX layout, styling, animation, scrolling and focus are not modelled. Neither are the navigation bar, the page shells and the fixed pie chart: they carry no logic beyond rendering.
- `fetch`, `sessionStorage`, the router, `alert` and `console` are left out. They are parameters, returned values or outcome datatypes.
- Timers are left out. `setInterval` and `setTimeout` become single events, so overlapping asynchronous ticks are not modelled.
- `Date.now()` identifiers are left out; they are caller-supplied integers.
- `Math.random()` is left out; it becomes three caller-chosen integers in the mock ranges.
- JavaScript numbers are integers here. Floating-point values, NaN and JSON values of an unexpected type are not modelled. Examples are a `progress` that is not a number, a `question` that is not a string, or a body that is not a JSON object.
- DirectorySelector.Selector.Tick: a reply without a `progress` field is not modelled; the source would then show an undefined progress.
- Strings.Lower: lower-cases ASCII letters only, because full Unicode case mapping is out of scope. For the three accepted sentiment labels the test result is the same.
- Strings.IntToString: renders integers only, because JavaScript's number-to-string rules for fractions and exponents are out of scope.
- YoutubeId.ExtractYoutubeIdSpec: lengths and `.` count code points, while JavaScript's `length` and a non-unicode `.` count UTF-16 code units. The result differs only for characters beyond U+FFFF. An example is a 9-letter id followed by one emoji, which JavaScript counts as 11 units and the model as 10 characters.
- The analyzer page's `loading` state is never set, and the mock card's `videoSource` is never set to a video. Both are kept only as the source declares them.
- The "examplePrompt" key that the examples page stores is never read by any page in this repository. The model records the write only.
- The analyzer passes its raw timeline, whose items carry `sentimiento`, to the chart, which reads `sentiment`. The two components are modelled separately, each on its own input.
- The endpoint returns `sources` as a single string, while the chat screens expect a list. Each side is modelled as written.
- The document parser, the vector store, the embedder and the language-model client are not modelled. In the endpoint they are function parameters. Because the parameters are total functions, their failures are not modelled. An exception in `embed_texts`, the store's search or `ask_llm` would escape the handler, which catches none, and the server would answer with status 500.
- The start-up walk over the data folder is not modelled.
- The backup API is not modelled: it calls the endpoint with an argument the endpoint does not take.
- The import of a parser function that does not exist is not modelled.
- Python's regular-expression engine is reduced to the one pattern `split_text` uses. Only U+0020 counts as a space in the separator.
- ChatPanel.Session.Send: the `isTyping` guard comes from the disabled input box, so the model states it through the cleared input rather than as a check in the handler.

=== FILE: chat_endpoint.dfy ===
/** The question endpoint of the backend (`POST /api/chat`): the question is embedded, the five
    nearest chunks are retrieved, a context and a readable list of sources are built from them
    in retrieval order, and the language model's answer is returned with that list. */
module ChatEndpoint {
  import opened Options
  import opened Strings

  /** One retrieved chunk: its text and the name of the file it came from. */
  datatype Chunk = Chunk(source: string, text: string)

  /** The number of chunks asked of the vector store. */
  const TopK := 5

  /** The longest excerpt of a chunk shown among the sources. */
  const ExcerptLength := 300

  const MissingQuestion := "Missing question"

  /** The response: status 400 with an error, or the answer with the sources as one string. */
  datatype Response = BadRequest(error: string) | Answered(answer: string, sources: string)

  function Status(r: Response): (code: int)
    ensures code == 400 <==> r.BadRequest?
    ensures code == 200 <==> r.Answered?
  {
    if r.BadRequest? then 400 else 200
  }

  /** The calls the handler makes on the components it cannot see. */
  datatype Call = Embed(text: string) | Search(topK: nat) | Ask(context: string, question: string)

  /** The line of the context that presents one chunk. */
  function ContextEntry(c: Chunk): (e: string)
    ensures StartsWith(e, "[From " + c.source + "]: ")
    ensures |e| == 10 + |c.source| + |c.text| && e[9 + |c.source|..|e| - 1] == c.text
    ensures e[|e| - 1] == '\n'
  {
    "[From " + c.source + "]: " + c.text + "\n"
  }

  /** The paragraph of the sources that presents one chunk: its file and at most the first 300
      characters of its text, followed by an ellipsis. */
  function SourceEntry(c: Chunk): (e: string)
    ensures StartsWith(e, "From " + c.source + "\n\U{2192} ")
    ensures e[|e| - 5..] == "...\n\n"
  {
    "From " + c.source + "\n\U{2192} " + Take(c.text, ExcerptLength) + "...\n\n"
  }

  /** The texts of the items, in order, joined end to end: what a loop that appends one text
      per item builds. */
  function Join<T>(xs: seq<T>, f: T -> string): string {
    if xs == [] then "" else Join(xs[..|xs| - 1], f) + f(xs[|xs| - 1])
  }

  /** Joining two runs of items joins the first and then the second. */
  lemma {:induction false} JoinAppend<T>(a: seq<T>, b: seq<T>, f: T -> string)
    ensures Join(a + b, f) == Join(a, f) + Join(b, f)
    decreases |b|
  {
    if b == [] {
      assert a + b == a;
    } else {
      var b' := b[..|b| - 1];
      assert (a + b)[..|a + b| - 1] == a + b' && (a + b)[|a + b| - 1] == b[|b| - 1];
      JoinAppend(a, b', f);
    }
  }

  /** Every item is presented, in its place: its text sits between the texts of the items before
      it and those of the items after it. */
  lemma JoinInPlace<T>(xs: seq<T>, k: nat, f: T -> string)
    requires k < |xs|
    ensures Join(xs, f) == Join(xs[..k], f) + f(xs[k]) + Join(xs[k + 1..], f)
  {
    var before, after := xs[..k], xs[k + 1..];
    assert xs == (before + [xs[k]]) + after;
    assert Join([xs[k]], f) == f(xs[k]) by {
      assert [xs[k]][..0] == [];
    }
    calc {
      Join(xs, f);
      { JoinAppend(before + [xs[k]], after, f); }
      Join(before + [xs[k]], f) + Join(after, f);
      { JoinAppend(before, [xs[k]], f); }
      Join(before, f) + f(xs[k]) + Join(after, f);
    }
  }

  /** The context: the entries of the chunks, in retrieval order. */
  function Context(cs: seq<Chunk>): (r: string)
    ensures r == "" <==> cs == []
    ensures cs != [] ==> (|r| >= |ContextEntry(cs[|cs| - 1])|
      && r[|r| - |ContextEntry(cs[|cs| - 1])|..] == ContextEntry(cs[|cs| - 1]))
  {
    var r := Join(cs, ContextEntry);
    assert cs != [] ==> r == Join(cs[..|cs| - 1], ContextEntry) + ContextEntry(cs[|cs| - 1]);
    r
  }

  /** The sources text: the paragraphs of the chunks, in retrieval order. */
  function Sources(cs: seq<Chunk>): (r: string)
    ensures r == "" <==> cs == []
    ensures cs != [] ==> (|r| >= |SourceEntry(cs[|cs| - 1])|
      && r[|r| - |SourceEntry(cs[|cs| - 1])|..] == SourceEntry(cs[|cs| - 1]))
  {
    var r := Join(cs, SourceEntry);
    assert cs != [] ==> r == Join(cs[..|cs| - 1], SourceEntry) + SourceEntry(cs[|cs| - 1]);
    r
  }

  /** A source paragraph shows the whole text of a chunk of at most 300 characters and the
      first 300 characters of a longer one; the ellipsis follows in both cases. */
  lemma SourceEntryExcerpt(c: Chunk)
    ensures |c.text| <= ExcerptLength ==>
      SourceEntry(c) == "From " + c.source + "\n\U{2192} " + c.text + "...\n\n"
    ensures |c.text| > ExcerptLength ==>
      SourceEntry(c) == "From " + c.source + "\n\U{2192} " + c.text[..ExcerptLength] + "...\n\n"
    ensures |SourceEntry(c)| == 5 + |c.source| + 3 + (if |c.text| < ExcerptLength then |c.text| else ExcerptLength) + 5
  {
  }

  /** `query_bot`, with the embedder, the vector store and the language model as functions. A
      missing or empty question is refused with status 400 before any call. Otherwise the
      question is embedded, the five nearest chunks are fetched, and the model is asked with the
      context of those chunks; its answer is returned unchanged with their sources. */
  method QueryBot<E>(question: Option<string>, embed: string -> E,
                     search: (E, nat) -> seq<Chunk>, ask: (string, string) -> string)
      returns (r: Response, calls: seq<Call>)
    ensures question == None || question.value == "" ==> r == BadRequest(MissingQuestion) && calls == []
    ensures question.Some? && question.value != "" ==>
      var cs := search(embed(question.value), TopK);
      r == Answered(ask(Context(cs), question.value), Sources(cs))
      && calls == [Embed(question.value), Search(TopK), Ask(Context(cs), question.value)]
  {
    if question == None || question.value == "" {
      return BadRequest(MissingQuestion), [];
    }
    var q := question.value;
    var queryEmbedding := embed(q);
    var relevant := search(queryEmbedding, TopK);
    var context := "";
    var sourcesDisplay := "";
    var i := 0;
    while i < |relevant|
      invariant i <= |relevant|
      invariant context == Context(relevant[..i])
      invariant sourcesDisplay == Sources(relevant[..i])
    {
      assert relevant[..i + 1][..i] == relevant[..i];
      context := context + ContextEntry(relevant[i]);
      sourcesDisplay := sourcesDisplay + SourceEntry(relevant[i]);
      i := i + 1;
    }
    assert relevant[..i] == relevant;
    var answer := ask(context, q);
    r := Answered(answer, sourcesDisplay);
    calls := [Embed(q), Search(TopK), Ask(context, q)];
  }
}

=== FILE: chat_interface.dfy ===
/** The full-page chat: an append-only transcript that opens with a greeting, a text input,
    and a typing flag that is raised while a question is in flight. */
module ChatInterface {
  import opened Options
  import opened Strings
  import opened MiniImages
  import opened ChatReply

  datatype Role = User | Assistant

  /** One turn of the transcript. */
  datatype Message = Message(id: int, role: Role, content: string,
                             sources: Option<seq<string>>, images: Option<seq<ImageData>>)

  /** The assistant's opening turn. */
  const Greeting := Message(1, Assistant,
    "Hello! I'm your AI assistant for best practices. Ask me about workplace etiquette, programming standards, safety procedures, or any other best practices you'd like to learn about.",
    None, None)

  /** A bare path becomes an image record with an empty source and no page. */
  function Lift(r: RawImage): ImageData {
    match r
    case Path(s) => ImageData(s, "", None)
    case Record(img) => img
  }

  /** The reply's images, each lifted to a record, in order. */
  function LiftAll(raw: seq<RawImage>): (r: seq<ImageData>)
    ensures |r| == |raw|
    ensures forall k :: 0 <= k < |raw| ==> r[k] == Lift(raw[k])
  {
    if raw == [] then [] else [Lift(raw[0])] + LiftAll(raw[1..])
  }

  /** The image list of an answer turn. A missing array gives no images; otherwise every
      image is kept, in order: a bare path `s` becomes `{src: s, source: "", page: none}` and a
      record passes unchanged. */
  function NormalizeImages(raw: Option<seq<RawImage>>): (r: seq<ImageData>)
    ensures raw == None ==> r == []
    ensures raw.Some? ==> |r| == |raw.value|
    ensures raw.Some? ==> forall k :: 0 <= k < |raw.value| ==>
      ((raw.value[k].Path? ==> r[k] == ImageData(raw.value[k].path, "", None))
       && (raw.value[k].Record? ==> r[k] == raw.value[k].image))
  {
    match raw
    case None => []
    case Some(xs) => LiftAll(xs)
  }

  /** A list made only of records normalises to its images. */
  lemma NormalizeRecords(imgs: seq<ImageData>)
    ensures NormalizeImages(Some(seq(|imgs|, k requires 0 <= k < |imgs| => Record(imgs[k])))) == imgs
  {
  }

  /** The content of an answer turn: the answer when it is a non-empty string, else the
      fallback; it is never empty. */
  function AnswerContent(answer: Option<string>): (c: string)
    ensures c != ""
    ensures answer.Some? && answer.value != "" ==> c == answer.value
    ensures answer == None || answer.value == "" ==> c == Fallback
  {
    if answer.Some? && answer.value != "" then answer.value else Fallback
  }

  /** The start of the message the handler throws for a non-OK status. */
  function StatusPrefix(status: int): (r: string)
    ensures |r| >= 9 && r[..6] == "Error " && r[|r| - 2..] == ": "
    ensures r[6..|r| - 2] == IntToString(status)
  {
    "Error " + IntToString(status) + ": "
  }

  /** The message of the error the handler catches: a thrown error's own, or the one it
      throws itself for a non-OK status. */
  function ErrorMessage(reply: Reply): (e: string)
    requires !reply.Ok?
    ensures reply.Thrown? ==> e == reply.message
    ensures reply.NotOk? ==> (StartsWith(e, StatusPrefix(reply.status))
      && e[|StatusPrefix(reply.status)|..] == reply.statusText)
  {
    match reply
    case Thrown(m) => m
    case NotOk(status, text) => StatusPrefix(status) + text
  }

  /** The start of every error turn. */
  const ErrorPrefix := "Error: "

  /** The assistant turn appended for `reply`, with identifier `id`. */
  function BotTurn(reply: Reply, id: int): (m: Message)
    ensures m.role == Assistant && m.id == id
    ensures reply.Ok? ==> (m.content == AnswerContent(reply.answer) && m.sources == reply.sources
      && m.images == Some(NormalizeImages(reply.images)))
    ensures !reply.Ok? ==> (m.content == ErrorPrefix + ErrorMessage(reply)
      && m.sources == None && m.images == None)
  {
    match reply
    case Ok(answer, sources, images) =>
      Message(id, Assistant, AnswerContent(answer), sources, Some(NormalizeImages(images)))
    case _ => Message(id, Assistant, ErrorPrefix + ErrorMessage(reply), None, None)
  }

  /** A failed request always shows as an error turn. */
  lemma ErrorTurns(reply: Reply, id: int)
    requires !reply.Ok?
    ensures StartsWith(BotTurn(reply, id).content, ErrorPrefix)
  {
    StartsWithAppend(ErrorPrefix, ErrorMessage(reply));
  }

  /** An answer turn shows thumbnails exactly when the reply's `images` array is present and
      non-empty; a failure turn never shows any. */
  lemma BotTurnShowsImages(reply: Reply, id: int)
    ensures ShowsImages(BotTurn(reply, id)) <==> reply.Ok? && reply.images.Some? && reply.images.value != []
    ensures !reply.Ok? ==> !ShowsImages(BotTurn(reply, id))
  {
  }

  /** The error turn of a non-OK status names the status. */
  lemma StatusErrorTurn(status: int, statusText: string, id: int)
    ensures StartsWith(BotTurn(NotOk(status, statusText), id).content, ErrorPrefix + StatusPrefix(status))
  {
    var e, p := ErrorPrefix, StatusPrefix(status);
    assert BotTurn(NotOk(status, statusText), id).content == e + (p + statusText);
    AppendAssoc(e, p, statusText);
    StartsWithAppend(e + p, statusText);
  }

  /** The sources listed under a turn: only assistant turns list any, and at most the first three. */
  function DisplayedSources(m: Message): (r: seq<string>)
    ensures |r| <= 3
    ensures m.role == User || m.sources == None ==> r == []
    ensures m.role == Assistant && m.sources.Some? ==>
      (|r| == (if |m.sources.value| < 3 then |m.sources.value| else 3) && r == m.sources.value[..|r|])
  {
    if m.role == Assistant && m.sources.Some? then Take(m.sources.value, 3) else []
  }

  /** The thumbnails under a turn are shown only for an assistant turn with at least one image. */
  predicate ShowsImages(m: Message) {
    m.role == Assistant && m.images.Some? && m.images.value != []
  }

  /** The chat page's state. */
  class Session {
    var messages: seq<Message>
    var input: string
    var isTyping: bool

    /** The transcript starts with the greeting, and while a question is in flight the input is
        empty (it was cleared on sending and is disabled until the reply). */
    ghost predicate Valid()
      reads this
    {
      |messages| >= 1 && messages[0] == Greeting && (isTyping ==> input == "")
    }

    constructor()
      ensures Valid()
      ensures messages == [Greeting] && input == "" && !isTyping
    {
      messages := [Greeting];
      input := "";
      isTyping := false;
    }

    /** Typing into the input box, which is disabled while a question is in flight. */
    method Type(text: string)
      requires Valid()
      modifies this
      ensures Valid()
      ensures messages == old(messages) && isTyping == old(isTyping)
      ensures input == if old(isTyping) then old(input) else text
    {
      if !isTyping {
        input := text;
      }
    }

    /** The synchronous part of `handleSendMessage`: nothing happens for a blank input or while
        a question is in flight; otherwise the user turn is appended, the input cleared and the
        typing flag raised, and the question to post is returned. */
    method Send(now: int) returns (question: Option<string>)
      requires Valid()
      modifies this
      ensures Valid()
      ensures question == None <==> IsBlank(old(input)) || old(isTyping)
      ensures question == None ==>
        (messages == old(messages) && input == old(input) && isTyping == old(isTyping))
      ensures question.Some? ==> (question.value == old(input)
        && messages == old(messages) + [Message(now, User, old(input), None, None)]
        && input == "" && isTyping)
    {
      if IsBlank(input) || isTyping {
        return None;
      }
      question := Some(input);
      messages := messages + [Message(now, User, input, None, None)];
      input := "";
      isTyping := true;
    }

    /** The continuation once the request settles: exactly one assistant turn is appended and
        the typing flag is lowered, whatever the outcome. */
    method Receive(reply: Reply, now: int)
      requires Valid() && isTyping
      modifies this
      ensures Valid()
      ensures messages == old(messages) + [BotTurn(reply, now + 1)]
      ensures input == old(input) && !isTyping
    {
      messages := messages + [BotTurn(reply, now + 1)];
      isTyping := false;
    }

    /** One whole exchange, with the backend as a function of the posted question: an accepted
        question adds exactly the user turn and then one assistant turn, and the earlier
        transcript is kept. */
    method HandleSendMessage(now: int, later: int, server: string -> Reply)
      requires Valid()
      modifies this
      ensures Valid()
      ensures IsBlank(old(input)) || old(isTyping) ==>
        (messages == old(messages) && input == old(input) && isTyping == old(isTyping))
      ensures !IsBlank(old(input)) && !old(isTyping) ==>
        (messages == old(messages) + [Message(now, User, old(input), None, None),
                                      BotTurn(server(old(input)), later + 1)]
         && input == "" && !isTyping)
    {
      var question := Send(now);
      if question.Some? {
        Receive(server(question.value), later);
      }
    }
  }
}

=== FILE: chat_panel.dfy ===
/** The chat card: the same exchange as the full-page chat, with its own greeting, a trimmed
    answer, a fixed error text, the reply's lists passed through as they are, and every source
    listed. */
module ChatPanel {
  import opened Options
  import opened Strings
  import opened ChatReply
  import ChatInterface

  datatype Role = User | Bot

  /** One turn of the transcript. The images are kept as the reply sent them: bare paths are
      not turned into records here. */
  datatype Message = Message(id: int, role: Role, content: string,
                             sources: Option<seq<string>>, images: Option<seq<RawImage>>)

  /** The bot's opening turn. */
  const Greeting := Message(1, Bot,
    "Hello! Welcome to the Best Practices AI chatbot. How can I help you today?", None, None)

  /** The text of the bot turn for any failure. */
  const ErrorText := "Sorry, there was an error processing your request."

  /** The content of an answer turn: the trimmed answer when that is non-empty, else the
      fallback. It is never empty and never starts or ends with white space. */
  function AnswerContent(answer: Option<string>): (c: string)
    ensures c != ""
    ensures !IsJsSpace(c[0]) && !IsJsSpace(c[|c| - 1])
    ensures answer.Some? && Trim(answer.value) != "" ==> c == Trim(answer.value)
    ensures answer == None || Trim(answer.value) == "" ==> c == Fallback
  {
    match answer
    case Some(a) =>
      var t := Trim(a);
      if t != "" then t else Fallback
    case None => Fallback
  }

  /** A list field of the reply, or the empty list when it is missing. */
  function OrEmpty<T>(xs: Option<seq<T>>): (r: seq<T>)
    ensures xs.Some? ==> r == xs.value
    ensures xs == None ==> r == []
  {
    match xs
    case None => []
    case Some(v) => v
  }

  /** The bot turn appended for `reply`, with identifier `id`: an answer turn whose lists are
      the reply's own (or empty), or the fixed error text for every kind of failure. */
  function BotTurn(reply: Reply, id: int): (m: Message)
    ensures m.role == Bot && m.id == id
    ensures reply.Ok? ==> (m.content == AnswerContent(reply.answer)
      && m.sources == Some(OrEmpty(reply.sources)) && m.images == Some(OrEmpty(reply.images)))
    ensures !reply.Ok? ==> m == Message(id, Bot, ErrorText, None, None)
  {
    match reply
    case Ok(answer, sources, images) =>
      Message(id, Bot, AnswerContent(answer), Some(OrEmpty(sources)), Some(OrEmpty(images)))
    case _ => Message(id, Bot, ErrorText, None, None)
  }

  /** Every source is listed, for any turn. */
  function DisplayedSources(m: Message): (r: seq<string>)
    ensures m.sources.Some? ==> r == m.sources.value
    ensures m.sources == None ==> r == []
  {
    OrEmpty(m.sources)
  }

  /** The card lists every source of an answer where the full-page chat lists three. */
  lemma SourcesDiffer(sources: seq<string>, id: int)
    requires |sources| > 3
    ensures var r := Ok(Some("ok"), Some(sources), None);
      |DisplayedSources(BotTurn(r, id))| == |sources|
      && |ChatInterface.DisplayedSources(ChatInterface.BotTurn(r, id))| == 3
  {
  }

  /** The card shows a fixed text where the full-page chat shows the error's own message. */
  lemma ErrorsDiffer(message: string, id: int)
    ensures BotTurn(Thrown(message), id).content == ErrorText
    ensures ChatInterface.BotTurn(Thrown(message), id).content == ChatInterface.ErrorPrefix + message
  {
  }

  /** The card trims the answer where the full-page chat keeps it as sent, so an answer that
      starts with white space is shown differently. */
  lemma TrimDiffers(answer: string)
    requires !IsBlank(answer) && IsJsSpace(answer[0])
    ensures AnswerContent(Some(answer)) != ChatInterface.AnswerContent(Some(answer))
  {
    BlankIffTrimEmpty(answer);
    assert ChatInterface.AnswerContent(Some(answer))[0] == answer[0];
  }

  /** The chat card's state. */
  class Session {
    var messages: seq<Message>
    var input: string
    var isTyping: bool

    /** The transcript starts with the greeting, and while a question is in flight the input is
        empty (it was cleared on sending and the input box is disabled until the reply). */
    ghost predicate Valid()
      reads this
    {
      |messages| >= 1 && messages[0] == Greeting && (isTyping ==> input == "")
    }

    constructor()
      ensures Valid()
      ensures messages == [Greeting] && input == "" && !isTyping
    {
      messages := [Greeting];
      input := "";
      isTyping := false;
    }

    /** Typing into the input box, which is disabled while a question is in flight. */
    method Type(text: string)
      requires Valid()
      modifies this
      ensures Valid()
      ensures messages == old(messages) && isTyping == old(isTyping)
      ensures input == if old(isTyping) then old(input) else text
    {
      if !isTyping {
        input := text;
      }
    }

    /** The synchronous part of `handleSendMessage`. The handler tests only for a blank input;
        it is the cleared and disabled input box that makes it a no-op while a question is in
        flight. */
    method Send(now: int) returns (question: Option<string>)
      requires Valid()
      modifies this
      ensures Valid()
      ensures question == None <==> IsBlank(old(input))
      ensures old(isTyping) ==> question == None
      ensures question == None ==>
        (messages == old(messages) && input == old(input) && isTyping == old(isTyping))
      ensures question.Some? ==> (question.value == old(input)
        && messages == old(messages) + [Message(now, User, old(input), None, None)]
        && input == "" && isTyping)
    {
      if IsBlank(input) {
        return None;
      }
      question := Some(input);
      messages := messages + [Message(now, User, input, None, None)];
      input := "";
      isTyping := true;
    }

    /** The continuation once the request settles: exactly one bot turn is appended and the
        typing flag is lowered on every path. */
    method Receive(reply: Reply, now: int)
      requires Valid() && isTyping
      modifies this
      ensures Valid()
      ensures messages == old(messages) + [BotTurn(reply, now + 1)]
      ensures input == old(input) && !isTyping
    {
      messages := messages + [BotTurn(reply, now + 1)];
      isTyping := false;
    }

    /** One whole exchange, with the backend as a function of the posted question. */
    method HandleSendMessage(now: int, later: int, server: string -> Reply)
      requires Valid()
      modifies this
      ensures Valid()
      ensures IsBlank(old(input)) ==>
        (messages == old(messages) && input == old(input) && isTyping == old(isTyping))
      ensures !IsBlank(old(input)) ==>
        (messages == old(messages) + [Message(now, User, old(input), None, None),
                                      BotTurn(server(old(input)), later + 1)]
         && input == "" && !isTyping)
    {
      var question := Send(now);
      if question.Some? {
        Receive(server(question.value), later);
      }
    }
  }
}

=== FILE: chat_reply.dfy ===
/** What the chat front ends receive from the backend for one question. */
module ChatReply {
  import opened Options
  import opened MiniImages

  /** One entry of the reply's `images` array: a bare path, or an image record. */
  datatype RawImage = Path(path: string) | Record(image: ImageData)

  /** The outcome of posting one question: the request threw (transport failure or a body
      that is not JSON), the status was not OK, or the JSON body arrived with its optional
      `answer`, `sources` and `images` fields. */
  datatype Reply =
    | Thrown(message: string)
    | NotOk(status: int, statusText: string)
    | Ok(answer: Option<string>, sources: Option<seq<string>>, images: Option<seq<RawImage>>)

  /** The text both front ends show when the answer is missing or empty. */
  const Fallback := "Sorry, I couldn't get an answer."
}

=== FILE: directory_selector.dfy ===
/** The document-ingestion form: a directory path is submitted to the backend, and the
    backend's progress is then polled once per tick until it reports that it is done. */
module DirectorySelector {
  import opened Options
  import opened Strings

  const Processing := "Procesando documentos..."
  const NotFound := "No se encontraron documentos en la ruta dada."
  const Done := "¡Listo!"

  /** The settled submit request: it threw (transport failure or a body that is not JSON), or
      the JSON body arrived with the status flag and its optional `message` field. */
  datatype SubmitReply = SubmitThrown | Submitted(ok: bool, message: Option<string>)

  /** One settled progress request: it threw, or it returned the backend's `progress` value
      and `done` flag. */
  datatype PollReply = PollThrown | Polled(progress: int, done: bool)

  /** How the rest of `handleAnalyze` goes for a submit reply. */
  datatype SubmitOutcome =
    | Stuck     // an uncaught error: the handler stops and nothing more happens
    | Rejected  // the "no documents" message is shown
    | Accepted  // polling starts

  /** The reply is rejected when the status is not OK or, for an OK status, when the message
      contains "0 files" anywhere; an OK reply without a message throws while its message is examined. */
  function Classify(reply: SubmitReply): (o: SubmitOutcome)
    ensures o == Rejected <==> reply.Submitted? && (!reply.ok || (reply.message.Some? && Contains(reply.message.value, "0 files")))
    ensures o == Stuck <==> reply.SubmitThrown? || (reply.ok && reply.message == None)
  {
    match reply
    case SubmitThrown => Stuck
    case Submitted(ok, message) =>
      if !ok then Rejected
      else if message == None then Stuck
      else if Contains(message.value, "0 files") then Rejected
      else Accepted
  }

  /** The test is a plain substring test: a report of ten files is taken for "0 files". */
  lemma TenFilesRejected()
    ensures Classify(Submitted(true, Some("Processed 10 files"))) == Rejected
  {
    var m := "Processed 10 files";
    assert m[11..18] == "0 files";
    ContainsAt(m, "0 files", 11);
  }

  /** A poll reply that reports completion. */
  predicate IsDone(r: PollReply) {
    r.Polled? && r.done
  }

  /** The position of the first reply that reports completion, or the length when none does. */
  function FirstDone(rs: seq<PollReply>): (n: nat)
    ensures n <= |rs|
    ensures forall k :: 0 <= k < n ==> !IsDone(rs[k])
    ensures n < |rs| ==> IsDone(rs[n])
  {
    if rs == [] then 0 else if IsDone(rs[0]) then 0 else 1 + FirstDone(rs[1..])
  }

  /** The progress shown after the replies `rs`, starting from `p`: each reply that arrived
      replaces it, whatever its value. */
  function LastProgress(rs: seq<PollReply>, p: int): (q: int)
    ensures q == p || exists j :: 0 <= j < |rs| && rs[j].Polled? && rs[j].progress == q
  {
    if rs == [] then p
    else match rs[|rs| - 1]
      case PollThrown => LastProgress(rs[..|rs| - 1], p)
      case Polled(q, _) => q
  }

  /** The progress is the value of the last reply that arrived, or the starting value when
      none did: there is no clamping and no check that it grows. */
  lemma {:induction false} LastProgressIsLastArrived(rs: seq<PollReply>, p: int, k: nat)
    requires k < |rs| && rs[k].Polled?
    requires forall j :: k < j < |rs| ==> rs[j].PollThrown?
    ensures LastProgress(rs, p) == rs[k].progress
    decreases |rs|
  {
    if k < |rs| - 1 {
      LastProgressIsLastArrived(rs[..|rs| - 1], p, k);
    }
  }

  /** With no reply arrived the progress keeps its starting value. */
  lemma {:induction false} LastProgressNoneArrived(rs: seq<PollReply>, p: int)
    requires forall j :: 0 <= j < |rs| ==> rs[j].PollThrown?
    ensures LastProgress(rs, p) == p
    decreases |rs|
  {
    if rs != [] {
      LastProgressNoneArrived(rs[..|rs| - 1], p);
    }
  }

  /** A later, smaller value replaces an earlier one. */
  lemma ProgressMayDecrease()
    ensures LastProgress([Polled(40, false), Polled(10, false)], 0) == 10
    ensures LastProgress([Polled(150, false)], 0) == 150
  {
  }

  /** The form's state, with `polling` standing for the running interval and
      `processedCount` for the calls of `onProcessed`. */
  class Selector {
    var path: string
    var loading: bool
    var progress: int
    var message: string
    var awaitingSubmit: bool
    var polling: bool
    var processedCount: nat

    /** A submit request or the polling exists only while the form is loading, and never both. */
    ghost predicate Valid()
      reads this
    {
      (awaitingSubmit ==> loading) && (polling ==> loading) && !(awaitingSubmit && polling)
    }

    constructor()
      ensures Valid()
      ensures path == "" && !loading && progress == 0 && message == ""
      ensures !awaitingSubmit && !polling && processedCount == 0
    {
      path := "";
      loading := false;
      progress := 0;
      message := "";
      awaitingSubmit := false;
      polling := false;
      processedCount := 0;
    }

    /** The analyze button is enabled only when the form is idle and a path was typed. */
    predicate Enabled()
      reads this
    {
      !loading && path != ""
    }

    /** Typing a path; the input box is disabled while loading. */
    method SetPath(text: string)
      requires Valid()
      modifies this
      ensures Valid()
      ensures path == (if old(loading) then old(path) else text)
      ensures loading == old(loading) && progress == old(progress) && message == old(message)
      ensures awaitingSubmit == old(awaitingSubmit) && polling == old(polling)
      ensures processedCount == old(processedCount)
    {
      if !loading {
        path := text;
      }
    }

    /** A click on the analyze button: when it is enabled the form starts loading, shows the
        processing message and posts the path. The progress keeps its earlier value. */
    method Click() returns (posted: Option<string>)
      requires Valid()
      modifies this
      ensures Valid()
      ensures posted.Some? <==> old(Enabled())
      ensures posted.Some? ==> (posted.value == old(path) && loading && message == Processing
        && awaitingSubmit && !polling)
      ensures posted == None ==> (loading == old(loading) && message == old(message)
        && awaitingSubmit == old(awaitingSubmit) && polling == old(polling))
      ensures path == old(path) && progress == old(progress) && processedCount == old(processedCount)
    {
      if !Enabled() {
        return None;
      }
      loading := true;
      message := Processing;
      awaitingSubmit := true;
      posted := Some(path);
    }

    /** The submit request settles. A rejected reply stops loading and shows the "no
        documents" message; an accepted one starts polling; an uncaught error leaves the form
        loading for good. */
    method OnSubmitReply(reply: SubmitReply)
      requires Valid() && awaitingSubmit
      modifies this
      ensures Valid() && !awaitingSubmit
      ensures Classify(reply) == Rejected ==> (!loading && message == NotFound && !polling)
      ensures Classify(reply) == Accepted ==> (loading && message == old(message) && polling)
      ensures Classify(reply) == Stuck ==> (loading && message == old(message) && !polling)
      ensures path == old(path) && progress == old(progress) && processedCount == old(processedCount)
    {
      awaitingSubmit := false;
      match Classify(reply)
      case Rejected =>
        message := NotFound;
        loading := false;
      case Accepted =>
        polling := true;
      case Stuck =>
    }

    /** One tick of the interval. A reply sets the progress to exactly the backend's value; a
        reply that reports completion stops the polling and the loading, shows the done
        message and notifies the page. A thrown request changes nothing, and the interval goes
        on. */
    method Tick(reply: PollReply)
      requires Valid() && polling
      modifies this
      ensures Valid()
      ensures progress == (if reply.Polled? then reply.progress else old(progress))
      ensures IsDone(reply) ==> (!polling && !loading && message == Done
        && processedCount == old(processedCount) + 1)
      ensures !IsDone(reply) ==> (polling && loading && message == old(message)
        && processedCount == old(processedCount))
      ensures path == old(path) && awaitingSubmit == old(awaitingSubmit)
    {
      if reply.Polled? {
        progress := reply.progress;
        if reply.done {
          polling := false;
          loading := false;
          message := Done;
          processedCount := processedCount + 1;
        }
      }
    }

    /** The interval, fed with the replies it receives in turn: it runs until a reply reports
        completion or the replies run out. Completion is handled once, so the page is notified
        at most once per run. */
    method RunPolling(replies: seq<PollReply>) returns (used: nat)
      requires Valid() && polling
      modifies this
      ensures Valid()
      ensures used == (if FirstDone(replies) < |replies| then FirstDone(replies) + 1 else |replies|)
      ensures progress == LastProgress(replies[..used], old(progress))
      ensures polling <==> FirstDone(replies) == |replies|
      ensures processedCount == old(processedCount) + (if polling then 0 else 1)
      ensures polling ==> (loading && message == old(message))
      ensures !polling ==> (!loading && message == Done)
      ensures path == old(path) && awaitingSubmit == old(awaitingSubmit)
    {
      used := 0;
      while used < |replies| && polling
        invariant Valid()
        invariant used <= |replies|
        invariant polling ==> used <= FirstDone(replies)
        invariant !polling ==> used == FirstDone(replies) + 1
        invariant progress == LastProgress(replies[..used], old(progress))
        invariant processedCount == old(processedCount) + (if polling then 0 else 1)
        invariant polling ==> (loading && message == old(message))
        invariant !polling ==> (!loading && message == Done)
        invariant path == old(path) && awaitingSubmit == old(awaitingSubmit)
        decreases |replies| - used
      {
        assert replies[..used + 1][..used] == replies[..used];
        Tick(replies[used]);
        used := used + 1;
      }
    }
  }
}

=== FILE: example_prompts.dfy ===
/** The examples page: six cards, three opening the chat with a prepared question and three
    opening the video analyzer with a prepared link, handed over through session storage. */
module ExamplePrompts {
  import opened Options
  import opened Strings
  import opened YoutubeId
  import VideoAnalyzer

  datatype Category = Chat | Analyzer

  /** One card: a chat card carries a prompt, an analyzer card a URL; both fields are optional. */
  datatype Example = Example(title: string, description: string, category: Category,
                             prompt: Option<string>, url: Option<string>)

  /** The video all three analyzer cards point at, and its watch address. */
  const DemoVideoId := "dQw4w9WgXcQ"
  const DemoVideoUrl := "https://www.youtube.com/watch?v=" + DemoVideoId

  const ChatRoute := "/chat"
  const AnalyzerRoute := "/analyzer"

  /** The cards, in display order. */
  const Examples := [
    Example("Workplace etiquette", "Get advice on professional behavior in the workplace", Chat,
      Some("What are the best practices for workplace etiquette in a remote team?"), None),
    Example("Coding standards", "Learn about programming best practices", Chat,
      Some("What are the best coding standards for a TypeScript project?"), None),
    Example("Meeting efficiency", "Tips for running effective meetings", Chat,
      Some("What are best practices for running efficient team meetings?"), None),
    Example("Product review", "Analyze sentiment in product review videos", Analyzer,
      None, Some(DemoVideoUrl)),
    Example("Tutorial quality", "Evaluate sentiment in educational content", Analyzer,
      None, Some(DemoVideoUrl)),
    Example("Customer testimonial", "Analyze sentiment in customer feedback videos", Analyzer,
      None, Some(DemoVideoUrl))
  ]

  /** A JavaScript string field is truthy when present and not empty. */
  predicate Truthy(f: Option<string>) {
    f.Some? && f.value != ""
  }

  /** The caption under a card. */
  function CategoryCaption(c: Category): (s: string)
    ensures s == "Chatbot" <==> c == Chat
    ensures c == Analyzer ==> s == "Video Analyzer"
  {
    if c == Chat then "Chatbot" else "Video Analyzer"
  }

  /** What a click leaves behind: the session storage and the route navigated to, if any. */
  datatype ClickEffect = ClickEffect(storage: map<string, string>, route: Option<string>)

  /** A click on a card. A chat card with a prompt stores it under "examplePrompt" and opens the
      chat; an analyzer card with a URL stores it under "exampleUrl" and opens the analyzer; a
      card without the field of its category does nothing. */
  function Click(e: Example, storage: map<string, string>): (r: ClickEffect)
    ensures r.route == Some(ChatRoute) <==> e.category == Chat && Truthy(e.prompt)
    ensures r.route == Some(AnalyzerRoute) <==> e.category == Analyzer && Truthy(e.url)
    ensures r.route == Some(ChatRoute) ==> r.storage == storage["examplePrompt" := e.prompt.value]
    ensures r.route == Some(AnalyzerRoute) ==> r.storage == storage["exampleUrl" := e.url.value]
    ensures r.route == None <==>
      (!(e.category == Chat && Truthy(e.prompt)) && !(e.category == Analyzer && Truthy(e.url)))
    ensures r.route == None ==> r.storage == storage
  {
    if e.category == Chat && Truthy(e.prompt) then
      ClickEffect(storage["examplePrompt" := e.prompt.value], Some(ChatRoute))
    else if e.category == Analyzer && Truthy(e.url) then
      ClickEffect(storage["exampleUrl" := e.url.value], Some(AnalyzerRoute))
    else ClickEffect(storage, None)
  }

  /** The table: the first three cards are chat cards with a prompt and no URL, the last three
      analyzer cards with the demo watch address and no prompt, so every card navigates. */
  lemma ExamplesShape(storage: map<string, string>)
    ensures |Examples| == 6
    ensures forall k :: 0 <= k < 3 ==>
      Examples[k].category == Chat && Truthy(Examples[k].prompt) && Examples[k].url == None
    ensures forall k :: 3 <= k < 6 ==>
      Examples[k].category == Analyzer && Examples[k].url == Some(DemoVideoUrl) && Examples[k].prompt == None
    ensures forall k :: 0 <= k < 3 ==> Click(Examples[k], storage).route == Some(ChatRoute)
    ensures forall k :: 3 <= k < 6 ==> Click(Examples[k], storage).route == Some(AnalyzerRoute)
  {
  }

  // ---------------------------------------------------------------------------
  // The demo address carries an id the analyzer accepts

  lemma DemoUrlNoLineTerminator()
    ensures FirstLineTerminator(DemoVideoUrl) == |DemoVideoUrl|
  {
    assert forall i :: 0 <= i < |DemoVideoUrl| ==> !IsLineTerminator(DemoVideoUrl[i]);
  }

  /** No alternative of the pattern begins after position 24. */
  lemma DemoUrlNoLaterMarker()
    ensures forall k :: 24 < k <= |DemoVideoUrl| ==> MarkerLen(DemoVideoUrl, k) == 0
  {
    forall k | 24 < k <= |DemoVideoUrl| ensures MarkerLen(DemoVideoUrl, k) == 0 {
      if MarkerLen(DemoVideoUrl, k) > 0 {
        MarkerLenStart(DemoVideoUrl, k);
      }
    }
  }

  /** The only marker is "watch?v=" at position 24. */
  lemma DemoUrlMarker()
    ensures |DemoVideoUrl| == 43
    ensures FindMarker(DemoVideoUrl, |DemoVideoUrl|) == Some(24) && MarkerLen(DemoVideoUrl, 24) == 8
  {
    assert DemoVideoUrl[24..32] == "watch?v=";
    DemoUrlNoLaterMarker();
    FindMarkerSkip(DemoVideoUrl, |DemoVideoUrl|, 24);
  }

  lemma DemoUrlRun()
    ensures |DemoVideoUrl| == 43
    ensures RunEnd(DemoVideoUrl, 32) == 43 && DemoVideoUrl[32..43] == DemoVideoId
  {
    assert forall k :: 32 <= k < |DemoVideoUrl| ==> !IsIdBreak(DemoVideoUrl[k]);
  }

  /** The extraction takes the 11-character id out of the demo address. */
  lemma DemoUrlId()
    ensures |DemoVideoId| == 11
    ensures ExtractYoutubeId(DemoVideoUrl) == Some(DemoVideoId)
  {
    DemoUrlNoLineTerminator();
    DemoUrlMarker();
    DemoUrlRun();
    ExtractFrom(DemoVideoUrl, 24, 8, 43, DemoVideoId);
  }

  /** A submit of the demo address on an idle analyzer page posts it, with the thumbnail of the
      demo id. */
  lemma DemoUrlAccepted()
    ensures VideoAnalyzer.Decide(DemoVideoUrl, false)
      == VideoAnalyzer.Posted(DemoVideoUrl, ThumbnailUrl(DemoVideoId))
  {
    DemoUrlId();
    assert !IsJsSpace(DemoVideoUrl[0]);
  }

  /** A click on an analyzer card followed by a fresh analyzer page and a submit: the page picks
      the address up from session storage, removes it, and posts it for analysis. */
  method OpenAnalyzerExample(k: nat, storage: map<string, string>)
      returns (route: Option<string>, storage': map<string, string>, o: VideoAnalyzer.SubmitOutcome)
    requires 3 <= k < |Examples|
    ensures route == Some(AnalyzerRoute)
    ensures storage' == storage - {"exampleUrl"}
    ensures o == VideoAnalyzer.Posted(DemoVideoUrl, ThumbnailUrl(DemoVideoId))
  {
    ExamplesShape(storage);
    var effect := Click(Examples[k], storage);
    route := effect.route;
    var page := new VideoAnalyzer.Analyzer();
    storage' := page.ConsumeExampleUrl(effect.storage);
    assert page.url == DemoVideoUrl;
    DemoUrlAccepted();
    o := page.Submit();
  }

  /** The hover state of the card grid. */
  class Grid {
    var hoveredIndex: Option<nat>

    constructor()
      ensures hoveredIndex == None
    {
      hoveredIndex := None;
    }

    /** A card is highlighted exactly when it is the hovered one. */
    predicate Highlighted(k: nat)
      reads this
    {
      hoveredIndex == Some(k)
    }

    /** The mouse enters card `k`: it becomes the only highlighted card. */
    method MouseEnter(k: nat)
      requires k < |Examples|
      modifies this
      ensures hoveredIndex == Some(k)
      ensures forall j :: Highlighted(j) <==> j == k
    {
      hoveredIndex := Some(k);
    }

    /** The mouse leaves a card: no card is highlighted. */
    method MouseLeave()
      modifies this
      ensures hoveredIndex == None
      ensures forall j :: !Highlighted(j)
    {
      hoveredIndex := None;
    }
  }
}

=== FILE: mini_images.dfy ===
/** The image thumbnails of a chat answer and the enlarged view of one of them: how each
    image's address and caption are composed, and which image the modal shows. */
module MiniImages {
  import opened Options
  import opened Strings

  /** One image of an answer: its path on the backend, the document it was taken from and,
      optionally, the page number. */
  datatype ImageData = ImageData(src: string, source: string, page: Option<int>)

  /** The backend origin the image paths are resolved against. */
  const Origin := "http://localhost:8000"

  /** The address of an image: the origin, a '/' unless the path already starts with one,
      then the path. */
  function ImageUrl(src: string): (u: string)
    ensures StartsWith(u, Origin + "/")
    ensures |src| <= |u| && u[|u| - |src|..] == src
    ensures |u| == |Origin| + |src| + (if StartsWith(src, "/") then 0 else 1)
  {
    Origin + (if StartsWith(src, "/") then "" else "/") + src
  }

  /** A path with or without its leading '/' resolves to the same address. */
  lemma ImageUrlSlash(src: string)
    requires !StartsWith(src, "/")
    ensures ImageUrl("/" + src) == ImageUrl(src)
  {
    assert StartsWith("/" + src, "/");
    assert Origin + "" + ("/" + src) == Origin + "/" + src;
  }

  /** Distinct rooted paths resolve to distinct addresses. */
  lemma ImageUrlInjective(a: string, b: string)
    requires StartsWith(a, "/") && StartsWith(b, "/")
    requires ImageUrl(a) == ImageUrl(b)
    ensures a == b
  {
    assert ImageUrl(a)[|Origin|..] == a;
    assert ImageUrl(b)[|Origin|..] == b;
  }

  /** `page && lead + "(p. " + page + ")"` as JSX renders it: nothing for a missing page,
      the digit 0 for page 0 (a falsy number is itself rendered), the note otherwise. */
  function PageNote(page: Option<int>, lead: string): (r: string)
    ensures r == "" <==> page == None
    ensures page == Some(0) ==> r == "0"
  {
    match page
    case None => ""
    case Some(n) => if n == 0 then "0" else lead + "(p. " + IntToString(n) + ")"
  }

  /** The caption under a thumbnail: the source, directly followed by the page note. */
  function ThumbCaption(img: ImageData): string {
    img.source + PageNote(img.page, " ")
  }

  /** The caption of the enlarged image: the source, a space, then the page note. */
  function ModalCaption(img: ImageData): string {
    img.source + " " + PageNote(img.page, "")
  }

  /** The thumbnail caption is the source alone exactly when there is no page, and for a
      non-zero page it is the source followed by " (p. N)"; both captions then agree. */
  lemma CaptionCases(img: ImageData)
    ensures ThumbCaption(img) == img.source <==> img.page == None
    ensures img.page.Some? && img.page.value != 0 ==>
      ThumbCaption(img) == img.source + " (p. " + IntToString(img.page.value) + ")"
      && ModalCaption(img) == ThumbCaption(img)
    ensures img.page == Some(0) ==> ThumbCaption(img) == img.source + "0"
  {
    if img.page.Some? {
      assert |ThumbCaption(img)| > |img.source|;
    }
  }

  /** One thumbnail as rendered: its address, its alternative text and its caption. */
  datatype Thumb = Thumb(url: string, alt: string, caption: string)

  /** The thumbnail for the image at position `idx`. */
  function ThumbOf(img: ImageData, idx: nat): Thumb {
    Thumb(ImageUrl(img.src), "Imagen " + NatToString(idx), ThumbCaption(img))
  }

  /** The thumbnails of `images`, from position `from` on, in order. */
  function ThumbsFrom(images: seq<ImageData>, from: nat): (ts: seq<Thumb>)
    requires from <= |images|
    ensures |ts| == |images| - from
    ensures forall k :: 0 <= k < |ts| ==> ts[k] == ThumbOf(images[from + k], from + k)
    decreases |images| - from
  {
    if from == |images| then [] else [ThumbOf(images[from], from)] + ThumbsFrom(images, from + 1)
  }

  /** The thumbnail strip: nothing at all for an empty list, otherwise one thumbnail per image
      in input order. */
  function Thumbnails(images: seq<ImageData>): (r: Option<seq<Thumb>>)
    ensures r == None <==> images == []
    ensures r.Some? ==> (|r.value| == |images|
      && forall k :: 0 <= k < |images| ==> r.value[k] == ThumbOf(images[k], k))
  {
    if images == [] then None else Some(ThumbsFrom(images, 0))
  }

  /** The enlarged view: the address and caption of the open image. */
  datatype ModalView = ModalView(url: string, caption: string)

  /** The gallery component: the images it is given and the index of the enlarged one. */
  class Gallery {
    var images: seq<ImageData>
    var openIdx: Option<nat>

    /** Mounted with `images`, nothing enlarged. */
    constructor(images: seq<ImageData>)
      ensures this.images == images && openIdx == None
    {
      this.images := images;
      openIdx := None;
    }

    /** The enlarged view, shown only when the list is non-empty, an index is open and an
        image exists at that index. */
    function Modal(): (m: Option<ModalView>)
      reads this
      ensures m.Some? <==> images != [] && openIdx.Some? && openIdx.value < |images|
      ensures m.Some? ==> (m.value.url == ImageUrl(images[openIdx.value].src)
        && m.value.caption == ModalCaption(images[openIdx.value]))
    {
      if images != [] && openIdx.Some? && openIdx.value < |images| then
        var img := images[openIdx.value];
        Some(ModalView(ImageUrl(img.src), ModalCaption(img)))
      else None
    }

    /** A click on thumbnail `idx` enlarges that image. */
    method ClickThumbnail(idx: nat)
      requires idx < |images|
      modifies this
      ensures images == old(images) && openIdx == Some(idx)
      ensures Modal().Some? && Modal().value.url == ImageUrl(images[idx].src)
    {
      openIdx := Some(idx);
    }

    /** A click on the dark overlay closes the enlarged view. */
    method ClickOverlay()
      modifies this
      ensures images == old(images) && openIdx == None && Modal() == None
    {
      openIdx := None;
    }

    /** The close button closes the enlarged view. */
    method ClickClose()
      modifies this
      ensures images == old(images) && openIdx == None && Modal() == None
    {
      openIdx := None;
    }

    /** A click inside the enlarged view stops there and does not close it. */
    method ClickModalBody()
      ensures images == old(images) && openIdx == old(openIdx)
    {
    }

    /** The parent passes a new list; the open index is kept, so it may now point past the
        end, and then no enlarged view is shown. */
    method SetImages(images: seq<ImageData>)
      modifies this
      ensures this.images == images && openIdx == old(openIdx)
    {
      this.images := images;
    }
  }
}

=== FILE: options.dfy ===
/** Optional values: a JSON field that may be absent, a nullable state variable. */
module Options {
  datatype Option<+T> = None | Some(value: T) {
    /** The value, or `default` when absent. */
    function GetOr(default: T): T {
      match this
      case Some(v) => v
      case None => default
    }
  }
}

=== FILE: pytext.dfy ===
/** Python's whitespace-driven string operations: `str.split()` with no separator
    and `str.strip()` with no argument, and how they interact with concatenation. */
module PyText {
  import opened Strings

  /** Length of the run of non-space characters at the start of `s`. */
  function TokenLen(s: string): (n: nat)
    ensures n <= |s|
    ensures s != [] && !IsPySpace(s[0]) ==> n > 0
  {
    if s == [] || IsPySpace(s[0]) then 0 else 1 + TokenLen(s[1..])
  }

  /** The leading token is the maximal run of non-space characters. */
  lemma {:induction false} TokenLenRun(s: string)
    ensures forall i :: 0 <= i < TokenLen(s) ==> !IsPySpace(s[i])
    ensures TokenLen(s) == |s| || IsPySpace(s[TokenLen(s)])
    decreases |s|
  {
    if s != [] && !IsPySpace(s[0]) {
      TokenLenRun(s[1..]);
      forall i | 0 < i < TokenLen(s) ensures !IsPySpace(s[i]) {
        assert s[i] == s[1..][i - 1];
      }
    }
  }

  /** `s.split()`: the maximal runs of non-space characters, left to right. */
  function Words(s: string): (ws: seq<string>)
    decreases |s|
  {
    if s == [] then []
    else if IsPySpace(s[0]) then Words(s[1..])
    else
      var n := TokenLen(s);
      [s[..n]] + Words(s[n..])
  }

  /** A word: a non-empty run of characters none of which is white space. */
  predicate IsToken(w: string) {
    w != [] && forall i :: 0 <= i < |w| ==> !IsPySpace(w[i])
  }

  /** Every piece `split()` returns is a word. */
  lemma {:induction false} WordsAreTokens(s: string)
    ensures forall k :: 0 <= k < |Words(s)| ==> IsToken(Words(s)[k])
    decreases |s|
  {
    if s == [] {
    } else if IsPySpace(s[0]) {
      WordsAreTokens(s[1..]);
    } else {
      var n := TokenLen(s);
      TokenLenRun(s);
      WordsAreTokens(s[n..]);
      assert IsToken(s[..n]);
    }
  }

  /** `s.strip()`. */
  function Strip(s: string): (r: string)
    ensures exists a :: InfixAt(s, r, a, Py)
    ensures r == [] || (!IsPySpace(r[0]) && !IsPySpace(r[|r| - 1]))
  {
    TrimBoth(s, Py)
  }

  /** Every character of `s` is Python white space. */
  predicate AllSpace(s: string) {
    forall i :: 0 <= i < |s| ==> IsPySpace(s[i])
  }

  /** `a` and `b` are separated by white space (or one of them is empty), so no word straddles them. */
  predicate Separated(a: string, b: string) {
    a == [] || b == [] || IsPySpace(a[|a| - 1]) || IsPySpace(b[0])
  }

  /** A string of white space has no words. */
  lemma {:induction false} WordsOfSpace(s: string)
    requires AllSpace(s)
    ensures Words(s) == []
  {
    if s != [] {
      WordsOfSpace(s[1..]);
    }
  }

  /** The leading token of `a + b` is the leading token of `a` when they are separated. */
  lemma TokenLenAppend(a: string, b: string)
    requires a != [] && Separated(a, b)
    ensures TokenLen(a + b) == TokenLen(a)
    decreases |a|
  {
    if !IsPySpace(a[0]) {
      if |a| == 1 {
        assert (a + b)[1..] == b;
      } else {
        assert (a + b)[1..] == a[1..] + b;
        TokenLenAppend(a[1..], b);
      }
    }
  }

  /** Splitting distributes over concatenation at a white-space boundary. */
  lemma {:induction false} WordsAppend(a: string, b: string)
    requires Separated(a, b)
    ensures Words(a + b) == Words(a) + Words(b)
    decreases |a|
  {
    if a == [] {
      assert a + b == b;
    } else if IsPySpace(a[0]) {
      WordsAppend(a[1..], b);
      WordsAppendSpace(a, b);
    } else {
      var n := TokenLen(a);
      assert a[n..] == [] || a[n..][|a[n..]| - 1] == a[|a| - 1];
      WordsAppend(a[n..], b);
      WordsAppendToken(a, b);
    }
  }

  /** Slicing a concatenation at a point inside its first part. */
  lemma AppendSlices<T>(a: seq<T>, b: seq<T>, n: nat)
    requires 0 < |a| && n <= |a|
    ensures (a + b)[0] == a[0] && (a + b)[1..] == a[1..] + b
    ensures (a + b)[..n] == a[..n] && (a + b)[n..] == a[n..] + b
  {
  }

  /** The step of `WordsAppend` past a leading space. */
  lemma WordsAppendSpace(a: string, b: string)
    requires a != [] && IsPySpace(a[0])
    requires Words(a[1..] + b) == Words(a[1..]) + Words(b)
    ensures Words(a + b) == Words(a) + Words(b)
  {
    AppendSlices(a, b, 1);
  }

  /** The step of `WordsAppend` past a leading word. */
  lemma WordsAppendToken(a: string, b: string)
    requires a != [] && !IsPySpace(a[0]) && Separated(a, b)
    requires Words(a[TokenLen(a)..] + b) == Words(a[TokenLen(a)..]) + Words(b)
    ensures Words(a + b) == Words(a) + Words(b)
  {
    var n := TokenLen(a);
    AppendSlices(a, b, n);
    calc {
      Words(a + b);
      { TokenLenAppend(a, b); }
      [(a + b)[..n]] + Words((a + b)[n..]);
      [a[..n]] + Words(a[n..] + b);
      [a[..n]] + Words(a[n..]) + Words(b);
      Words(a) + Words(b);
    }
  }

  /** Stripping white space from both ends never changes the words. */
  lemma WordsStrip(s: string)
    ensures Words(Strip(s)) == Words(s)
  {
    var r := Strip(s);
    var a :| InfixAt(s, r, a, Py);
    WordsOfInfix(s, r, a);
  }

  /** Cutting off only white space at both ends keeps the words. */
  lemma WordsOfInfix(s: string, r: string, a: int)
    requires InfixAt(s, r, a, Py)
    ensures Words(r) == Words(s)
  {
    var pre, post := s[..a], s[a + |r|..];
    assert s == pre + (r + post);
    assert AllSpace(pre) by {
      forall i | 0 <= i < |pre| ensures IsPySpace(pre[i]) {
        assert pre[i] == s[i];
      }
    }
    assert AllSpace(post) by {
      forall i | 0 <= i < |post| ensures IsPySpace(post[i]) {
        assert post[i] == s[a + |r| + i];
      }
    }
    WordsOfSpace(pre);
    WordsOfSpace(post);
    if r == [] {
      WordsAppend(pre, post);
      assert r + post == post;
    } else {
      WordsAppend(r, post);
      assert r + post != [] && (r + post)[0] == r[0];
      WordsAppend(pre, r + post);
    }
  }

  /** Stripping is idempotent. */
  lemma StripStripped(s: string)
    requires s == [] || (!IsPySpace(s[0]) && !IsPySpace(s[|s| - 1]))
    ensures Strip(s) == s
  {
    var r := Strip(s);
    var a :| InfixAt(s, r, a, Py);
    if s != [] {
      var first, last := s[0], s[|s| - 1];
      assert !IsPySpace(first) && !IsPySpace(last);
      assert a == 0 && a + |r| == |s|;
    }
  }

  /** A non-empty run of white space between two strings only separates their words. */
  lemma WordsAroundSpace(a: string, sp: string, b: string)
    requires sp != [] && AllSpace(sp)
    ensures Words(a + sp + b) == Words(a) + Words(b)
  {
    assert a + sp + b == a + (sp + b);
    WordsAppend(sp, b);
    WordsOfSpace(sp);
    WordsAppend(a, sp + b);
  }
}

=== FILE: retriever.dfy ===
/** The document chunker of the question-answering backend (`split_text`): the text is cut
    into sentences, and consecutive sentences are packed greedily into chunks whose
    combined word count stays below a limit. */
module Retriever {
  import opened Strings
  import opened PyText

  /** The characters that may end a sentence. */
  predicate IsTerminator(c: char) {
    c == '.' || c == '!' || c == '?'
  }

  /** A separator of `re.split(r'(?<=[.!?]) +', s)` starts at `i`: a space that directly
      follows a terminator. Only U+0020 counts as a space for this pattern. */
  predicate SplitsAt(s: string, i: int) {
    1 <= i < |s| && s[i] == ' ' && IsTerminator(s[i - 1])
  }

  /** The first separator start at or after `k`, or `|s|` when there is none. */
  function NextSplit(s: string, k: nat): (i: nat)
    requires k >= 1
    ensures i <= |s|
    ensures i < |s| ==> k <= i && SplitsAt(s, i)
    decreases |s| - k
  {
    if k >= |s| then |s|
    else if SplitsAt(s, k) then k
    else NextSplit(s, k + 1)
  }

  /** No separator starts between `k` and the one `NextSplit` finds. */
  lemma {:induction false} NextSplitFirst(s: string, k: nat)
    requires k >= 1
    ensures forall j :: k <= j < NextSplit(s, k) ==> !SplitsAt(s, j)
    decreases |s| - k
  {
    if k < |s| && !SplitsAt(s, k) {
      NextSplitFirst(s, k + 1);
    }
  }

  /** The end of the run of spaces starting at `i`: the separator ` +` is greedy. */
  function SpaceRunEnd(s: string, i: nat): (j: nat)
    requires i <= |s|
    ensures i <= j <= |s|
    ensures j == |s| || s[j] != ' '
    decreases |s| - i
  {
    if i < |s| && s[i] == ' ' then SpaceRunEnd(s, i + 1) else i
  }

  /** The run found by `SpaceRunEnd` is all spaces. */
  lemma {:induction false} SpaceRunEndRun(s: string, i: nat)
    requires i <= |s|
    ensures forall m :: i <= m < SpaceRunEnd(s, i) ==> s[m] == ' '
    decreases |s| - i
  {
    if i < |s| && s[i] == ' ' {
      SpaceRunEndRun(s, i + 1);
    }
  }

  /** `re.split(r'(?<=[.!?]) +', s)`: the pieces of `s` between the separators. After a
      separator the next piece starts with a non-space, so no separator can start there,
      and the search in the rest may begin at its second character. */
  function Sentences(s: string): (ps: seq<string>)
    ensures |ps| >= 1
    decreases |s|
  {
    var i := NextSplit(s, 1);
    if i >= |s| then [s]
    else
      var j := SpaceRunEnd(s, i);
      [s[..i]] + Sentences(s[j..])
  }

  /** The words of all the strings of `ps`, in order. */
  function FlatWords(ps: seq<string>): seq<string> {
    if ps == [] then [] else FlatWords(ps[..|ps| - 1]) + Words(ps[|ps| - 1])
  }

  /** The strings of all the groups, in order. */
  function Flatten(gs: seq<seq<string>>): seq<string> {
    if gs == [] then [] else gs[0] + Flatten(gs[1..])
  }

  /** The string the loop builds for a group of sentences: each sentence followed by one space. */
  function JoinSp(g: seq<string>): string {
    if g == [] then "" else JoinSp(g[..|g| - 1]) + (g[|g| - 1] + " ")
  }

  /** The greedy packing that `split_text` performs, as groups of sentences. `cur` is the
      group being filled; the next sentence joins it only if the words of the group's string
      and the sentence together number fewer than `size`, otherwise the group is closed
      and the sentence starts a new one. The final group is kept when it is non-empty. */
  function Pack(ss: seq<string>, size: int, cur: seq<string>): seq<seq<string>>
    decreases |ss|
  {
    if ss == [] then (if cur == [] then [] else [cur])
    else if |Words(JoinSp(cur) + ss[0])| < size then Pack(ss[1..], size, cur + [ss[0]])
    else [cur] + Pack(ss[1..], size, [ss[0]])
  }

  /** The chunk string `split_text` appends for a group: the loop's string, stripped. */
  function ChunkOf(g: seq<string>): string {
    Strip(JoinSp(g))
  }

  /** `f` applied to each item, in order. */
  function MapSeq<A, B>(xs: seq<A>, f: A -> B): (ys: seq<B>)
    ensures |ys| == |xs|
  {
    if xs == [] then [] else [f(xs[0])] + MapSeq(xs[1..], f)
  }

  /** Item `k` of the image is the image of item `k`. */
  lemma {:induction false} MapSeqAt<A, B>(xs: seq<A>, f: A -> B, k: nat)
    requires k < |xs|
    ensures MapSeq(xs, f)[k] == f(xs[k])
  {
    if k > 0 {
      MapSeqAt(xs[1..], f, k - 1);
    }
  }

  /** Each group as its chunk string. */
  function Render(gs: seq<seq<string>>): (cs: seq<string>)
    ensures |cs| == |gs|
  {
    MapSeq(gs, ChunkOf)
  }

  /** Chunk `k` is the chunk string of group `k`. */
  lemma RenderAt(gs: seq<seq<string>>, k: nat)
    requires k < |gs|
    ensures Render(gs)[k] == ChunkOf(gs[k])
  {
    MapSeqAt(gs, ChunkOf, k);
  }

  /** Packing makes at most one group more than there are sentences, and at least one group
      when there is a sentence or an open group. */
  lemma {:induction false} PackCount(ss: seq<string>, size: int, cur: seq<string>)
    ensures |Pack(ss, size, cur)| <= |ss| + 1
    ensures ss != [] || cur != [] ==> |Pack(ss, size, cur)| >= 1
    decreases |ss|
  {
    if ss != [] {
      if |Words(JoinSp(cur) + ss[0])| < size {
        PackCount(ss[1..], size, cur + [ss[0]]);
      } else {
        PackCount(ss[1..], size, [ss[0]]);
      }
    }
  }

  /** The sentence groups of `text` under the limit `size`. */
  function Groups(text: string, size: int): (gs: seq<seq<string>>)
    ensures 1 <= |gs| <= |Sentences(text)| + 1
  {
    PackCount(Sentences(text), size, []);
    Pack(Sentences(text), size, [])
  }

  /** The word limit `split_text` uses when its caller gives none. */
  const DefaultChunkSize := 500

  /** What `split_text(text, size)` returns. */
  function Chunks(text: string, size: int): (cs: seq<string>)
    ensures 1 <= |cs| <= |Sentences(text)| + 1
  {
    Render(Groups(text, size))
  }

  /** `split_text`: the loop over the sentences, accumulating the current chunk string and
      the list of finished chunks. */
  method SplitText(text: string, chunkSize: int) returns (chunks: seq<string>)
    ensures chunks == Chunks(text, chunkSize)
  {
    var sentences := Sentences(text);
    chunks := [];
    var current := "";
    ghost var cur: seq<string> := [];
    assert sentences[0..] == sentences;
    assert JoinSp([]) == "";
    assert chunks + Render(Pack(sentences[0..], chunkSize, [])) == Chunks(text, chunkSize);
    for k := 0 to |sentences|
      invariant current == JoinSp(cur)
      invariant chunks + Render(Pack(sentences[k..], chunkSize, cur)) == Chunks(text, chunkSize)
    {
      var sentence := sentences[k];
      assert sentences[k..][0] == sentence && sentences[k..][1..] == sentences[k + 1..];
      if |Words(current + sentence)| < chunkSize {
        ExtendStep(sentences[k..], chunkSize, cur);
        current := current + sentence + " ";
        cur := cur + [sentence];
      } else {
        CloseStep(chunks, sentences[k..], chunkSize, cur);
        chunks := chunks + [Strip(current)];
        current := sentence + " ";
        cur := [sentence];
      }
    }
    assert sentences[|sentences|..] == [];
    JoinSpEmpty(cur);
    if current != "" {
      chunks := chunks + [Strip(current)];
    }
  }

  /** `split_text(text)` with the default limit: the chunks of the packing under 500 words. */
  method SplitTextDefault(text: string) returns (chunks: seq<string>)
    ensures chunks == Chunks(text, DefaultChunkSize)
  {
    chunks := SplitText(text, DefaultChunkSize);
  }

  /** The loop's step when the sentence joins the open group: the group's string grows by
      the sentence and a space, and what remains to be packed is unchanged. */
  lemma ExtendStep(ss: seq<string>, size: int, cur: seq<string>)
    requires ss != [] && |Words(JoinSp(cur) + ss[0])| < size
    ensures Pack(ss, size, cur) == Pack(ss[1..], size, cur + [ss[0]])
    ensures JoinSp(cur + [ss[0]]) == JoinSp(cur) + ss[0] + " "
  {
    assert (cur + [ss[0]])[..|cur|] == cur;
  }

  /** The loop's step when the sentence closes the open group: the group's chunk is emitted
      and the sentence opens the next group. */
  lemma CloseStep(chunks: seq<string>, ss: seq<string>, size: int, cur: seq<string>)
    requires ss != [] && |Words(JoinSp(cur) + ss[0])| >= size
    ensures chunks + Render(Pack(ss, size, cur))
      == (chunks + [Strip(JoinSp(cur))]) + Render(Pack(ss[1..], size, [ss[0]]))
    ensures JoinSp([ss[0]]) == ss[0] + " "
  {
    var rest := Pack(ss[1..], size, [ss[0]]);
    PackClose(ss, size, cur);
    RenderCons(cur, rest);
    assert chunks + ([ChunkOf(cur)] + Render(rest)) == (chunks + [ChunkOf(cur)]) + Render(rest);
    assert [ss[0]][..0] == [];
  }

  /** Packing when the next sentence does not fit: the open group is closed. */
  lemma PackClose(ss: seq<string>, size: int, cur: seq<string>)
    requires ss != [] && |Words(JoinSp(cur) + ss[0])| >= size
    ensures Pack(ss, size, cur) == [cur] + Pack(ss[1..], size, [ss[0]])
  {
  }

  /** Rendering a group followed by further groups. */
  lemma RenderCons(g: seq<string>, gs: seq<seq<string>>)
    ensures Render([g] + gs) == [ChunkOf(g)] + Render(gs)
  {
    assert ([g] + gs)[1..] == gs;
  }

  // ---------------------------------------------------------------------------
  // Sentences

  /** The sentence splitter loses no word: the words of the pieces are the words of the text. */
  lemma {:induction false} SentencesWords(s: string)
    ensures FlatWords(Sentences(s)) == Words(s)
    decreases |s|
  {
    var i := NextSplit(s, 1);
    if i >= |s| {
      FlatWordsCons(s, []);
    } else {
      var j := SpaceRunEnd(s, i);
      var head, sp, rest := s[..i], s[i..j], s[j..];
      SeparatorIsSpace(s, i);
      assert Sentences(s) == [head] + Sentences(rest);
      calc {
        FlatWords(Sentences(s));
        FlatWords([head] + Sentences(rest));
        { FlatWordsCons(head, Sentences(rest)); }
        Words(head) + FlatWords(Sentences(rest));
        { SentencesWords(rest); }
        Words(head) + Words(rest);
        { WordsAroundSpace(head, sp, rest); }
        Words(head + sp + rest);
        { assert s == head + sp + rest; }
        Words(s);
      }
    }
  }

  /** A separator is a non-empty run of spaces, as Python counts spaces. */
  lemma SeparatorIsSpace(s: string, i: nat)
    requires SplitsAt(s, i)
    ensures var sp := s[i..SpaceRunEnd(s, i)]; sp != [] && AllSpace(sp)
  {
    var sp := s[i..SpaceRunEnd(s, i)];
    SpaceRunEndRun(s, i);
    forall k | 0 <= k < |sp| ensures IsPySpace(sp[k]) {
      assert sp[k] == s[i + k] == ' ';
    }
  }

  /** No piece contains a separator. */
  ghost predicate NoSeparatorInside(ps: seq<string>) {
    forall k, m :: 0 <= k < |ps| ==> !SplitsAt(ps[k], m)
  }

  /** Every piece but the last ends with a terminator. */
  ghost predicate EndWithTerminators(ps: seq<string>) {
    forall k :: 0 <= k < |ps| - 1 ==> ps[k] != [] && IsTerminator(ps[k][|ps[k]| - 1])
  }

  /** No sentence is cut inside: no piece contains a separator, and every piece but the
      last ends with the terminator that the separator followed. */
  lemma SentencesUnsplit(s: string)
    ensures NoSeparatorInside(Sentences(s)) && EndWithTerminators(Sentences(s))
  {
    SentencesHaveNoSeparator(s);
    SentencesEndWithTerminator(s);
  }

  lemma {:induction false} SentencesHaveNoSeparator(s: string)
    ensures NoSeparatorInside(Sentences(s))
    decreases |s|
  {
    var i := NextSplit(s, 1);
    NextSplitFirst(s, 1);
    if i >= |s| {
      forall m ensures !SplitsAt(s, m) {
        if 1 <= m < |s| { assert 1 <= m < i; }
      }
    } else {
      var j := SpaceRunEnd(s, i);
      var head, rest := s[..i], s[j..];
      SentencesHaveNoSeparator(rest);
      var ps, qs := Sentences(s), Sentences(rest);
      assert ps == [head] + qs;
      forall m ensures !SplitsAt(head, m) {
        if SplitsAt(head, m) { assert SplitsAt(s, m); }
      }
      forall k, m | 0 <= k < |ps| ensures !SplitsAt(ps[k], m) {
        if k > 0 {
          assert ps[k] == qs[k - 1];
        } else {
          assert ps[k] == head;
        }
      }
    }
  }

  lemma {:induction false} SentencesEndWithTerminator(s: string)
    ensures EndWithTerminators(Sentences(s))
    decreases |s|
  {
    var i := NextSplit(s, 1);
    if i < |s| {
      var j := SpaceRunEnd(s, i);
      var head, rest := s[..i], s[j..];
      SentencesEndWithTerminator(rest);
      var ps, qs := Sentences(s), Sentences(rest);
      assert ps == [head] + qs;
      assert head != [] && IsTerminator(head[|head| - 1]) by {
        assert SplitsAt(s, i);
        assert head[i - 1] == s[i - 1];
      }
      forall k | 0 <= k < |ps| - 1 ensures ps[k] != [] && IsTerminator(ps[k][|ps[k]| - 1]) {
        if k > 0 {
          assert ps[k] == qs[k - 1];
        } else {
          assert ps[k] == head;
        }
      }
    }
  }

  /** The empty text is one empty sentence. */
  lemma SentencesOfEmpty()
    ensures Sentences("") == [""]
  {
  }

  // ---------------------------------------------------------------------------
  // Words of joined groups

  /** Concatenated word lists distribute over concatenated string lists. */
  lemma {:induction false} FlatWordsAppend(a: seq<string>, b: seq<string>)
    ensures FlatWords(a + b) == FlatWords(a) + FlatWords(b)
    decreases |b|
  {
    if b == [] {
      assert a + b == a;
    } else {
      var b' := b[..|b| - 1];
      assert (a + b)[..|a + b| - 1] == a + b' && (a + b)[|a + b| - 1] == b[|b| - 1];
      FlatWordsAppend(a, b');
    }
  }

  /** The words of a string followed by further strings. */
  lemma {:induction false} FlatWordsCons(x: string, rest: seq<string>)
    ensures FlatWords([x] + rest) == Words(x) + FlatWords(rest)
  {
    FlatWordsAppend([x], rest);
    assert FlatWords([x]) == Words(x) by {
      assert [x][..0] == [];
    }
  }

  /** The loop's chunk string is empty exactly for the empty group, and otherwise ends with a space. */
  lemma JoinSpEmpty(g: seq<string>)
    ensures JoinSp(g) == "" <==> g == []
    ensures g != [] ==> JoinSp(g)[|JoinSp(g)| - 1] == ' '
  {
  }

  /** The words of a group's string are the words of its sentences. */
  lemma {:induction false} JoinSpWords(g: seq<string>)
    ensures Words(JoinSp(g)) == FlatWords(g)
  {
    if g != [] {
      var g', x := g[..|g| - 1], g[|g| - 1];
      JoinSpWords(g');
      JoinSpEmpty(g');
      WordsAppend(JoinSp(g'), x + " ");
      WordsAppend(x, " ");
      WordsOfSpace(" ");
    }
  }

  /** The word count the loop tests: the group's words followed by the sentence's. */
  lemma CandidateWords(cur: seq<string>, s: string)
    ensures Words(JoinSp(cur) + s) == FlatWords(cur) + Words(s)
    ensures Words(JoinSp(cur) + s) == FlatWords(cur + [s])
  {
    JoinSpEmpty(cur);
    WordsAppend(JoinSp(cur), s);
    JoinSpWords(cur);
    assert (cur + [s])[..|cur|] == cur;
  }

  /** A group's word list contains the word list of every prefix of it, so a group under the
      limit has every prefix under the limit. */
  lemma {:induction false} FlatWordsPrefix(g: seq<string>, n: nat)
    requires n <= |g|
    ensures |FlatWords(g[..n])| <= |FlatWords(g)|
    decreases |g|
  {
    if n < |g| {
      assert g[..|g| - 1][..n] == g[..n];
      FlatWordsPrefix(g[..|g| - 1], n);
    } else {
      assert g[..n] == g;
    }
  }

  // ---------------------------------------------------------------------------
  // The greedy packing

  /** The groups are consecutive pieces of the input: no sentence is lost, repeated or
      reordered. */
  lemma {:induction false} PackFlatten(ss: seq<string>, size: int, cur: seq<string>)
    ensures Flatten(Pack(ss, size, cur)) == cur + ss
    decreases |ss|
  {
    if ss == [] {
      if cur != [] { assert Flatten([cur]) == cur + Flatten([]); }
    } else {
      assert [ss[0]] + ss[1..] == ss;
      if |Words(JoinSp(cur) + ss[0])| < size {
        PackFlatten(ss[1..], size, cur + [ss[0]]);
      } else {
        var rest := Pack(ss[1..], size, [ss[0]]);
        PackFlatten(ss[1..], size, [ss[0]]);
        assert ([cur] + rest)[1..] == rest;
      }
    }
  }

  /** Only the group open at the start can be empty, and it is closed empty exactly when the
      first sentence alone reaches the limit; a group that has been opened keeps its sentences
      at the front of the first group. */
  lemma {:induction false} PackShape(ss: seq<string>, size: int, cur: seq<string>)
    ensures var gs := Pack(ss, size, cur);
      && (|gs| == 0 <==> ss == [] && cur == [])
      && (forall k :: 0 < k < |gs| ==> gs[k] != [])
      && (|gs| > 0 ==> (gs[0] == [] <==> cur == [] && ss != [] && |Words(ss[0])| >= size))
      && (cur != [] ==> |gs| > 0 && |cur| <= |gs[0]| && gs[0][..|cur|] == cur)
    decreases |ss|
  {
    if ss != [] {
      assert JoinSp(cur) + ss[0] == ss[0] <== cur == [];
      if |Words(JoinSp(cur) + ss[0])| < size {
        PackShape(ss[1..], size, cur + [ss[0]]);
        assert (cur + [ss[0]])[..|cur|] == cur;
        var g0 := Pack(ss, size, cur)[0];
        assert g0[..|cur|] == g0[..|cur| + 1][..|cur|];
      } else {
        var rest := Pack(ss[1..], size, [ss[0]]);
        PackShape(ss[1..], size, [ss[0]]);
        assert ([cur] + rest)[1..] == rest;
        assert cur == [] ==> JoinSp(cur) + ss[0] == ss[0];
      }
    }
  }

  /** Group `k` of a group of two or more sentences has fewer than `size` words. */
  predicate SmallGroup(gs: seq<seq<string>>, size: int, k: int) {
    0 <= k < |gs| && |gs[k]| >= 2 ==> |FlatWords(gs[k])| < size
  }

  /** A group of two or more sentences has fewer than `size` words. */
  lemma {:induction false} PackSmallGroups(ss: seq<string>, size: int, cur: seq<string>)
    requires |cur| >= 2 ==> |FlatWords(cur)| < size
    ensures forall k :: SmallGroup(Pack(ss, size, cur), size, k)
    decreases |ss|
  {
    var gs := Pack(ss, size, cur);
    if ss == [] {
      forall k ensures SmallGroup(gs, size, k) {
      }
    } else {
      CandidateWords(cur, ss[0]);
      if |Words(JoinSp(cur) + ss[0])| < size {
        PackSmallGroups(ss[1..], size, cur + [ss[0]]);
      } else {
        var rest := Pack(ss[1..], size, [ss[0]]);
        PackSmallGroups(ss[1..], size, [ss[0]]);
        assert gs == [cur] + rest;
        forall k ensures SmallGroup(gs, size, k) {
          if 0 < k < |gs| {
            assert gs[k] == rest[k - 1];
            assert SmallGroup(rest, size, k - 1);
          }
        }
      }
    }
  }

  /** Group `k` was closed because the first sentence of group `k + 1` would have brought
      its word count to `size` or beyond. */
  predicate ClosedFull(gs: seq<seq<string>>, size: int, k: int) {
    0 <= k < |gs| - 1 ==> gs[k + 1] != [] && |FlatWords(gs[k])| + |Words(gs[k + 1][0])| >= size
  }

  /** Greediness: a group is closed only because the next sentence would bring its word count
      to `size` or beyond. */
  lemma {:induction false} PackMaximal(ss: seq<string>, size: int, cur: seq<string>)
    ensures forall k :: ClosedFull(Pack(ss, size, cur), size, k)
    decreases |ss|
  {
    var gs := Pack(ss, size, cur);
    if ss == [] {
      forall k ensures ClosedFull(gs, size, k) {
      }
    } else {
      CandidateWords(cur, ss[0]);
      if |Words(JoinSp(cur) + ss[0])| < size {
        PackMaximal(ss[1..], size, cur + [ss[0]]);
      } else {
        var rest := Pack(ss[1..], size, [ss[0]]);
        PackMaximal(ss[1..], size, [ss[0]]);
        PackShape(ss[1..], size, [ss[0]]);
        assert gs == [cur] + rest;
        forall k ensures ClosedFull(gs, size, k) {
          if k == 0 && |gs| > 1 {
            assert gs[1] == rest[0];
            assert rest[0][..1] == [ss[0]];
            assert rest[0][0] == ss[0];
          } else if 0 < k < |gs| - 1 {
            assert gs[k] == rest[k - 1] && gs[k + 1] == rest[k];
            assert ClosedFull(rest, size, k - 1);
          }
        }
      }
    }
  }

  // ---------------------------------------------------------------------------
  // Properties of the chunks

  /** Stripping a group's string keeps the words of its sentences. */
  lemma ChunkWords(g: seq<string>)
    ensures Words(ChunkOf(g)) == FlatWords(g)
  {
    WordsStrip(JoinSp(g));
    JoinSpWords(g);
  }

  /** The words of the rendered chunks are the words of the grouped sentences. */
  lemma {:induction false} RenderWords(gs: seq<seq<string>>)
    ensures FlatWords(Render(gs)) == FlatWords(Flatten(gs))
  {
    if gs != [] {
      calc {
        FlatWords(Render(gs));
        FlatWords([ChunkOf(gs[0])] + Render(gs[1..]));
        { FlatWordsCons(ChunkOf(gs[0]), Render(gs[1..])); }
        Words(ChunkOf(gs[0])) + FlatWords(Render(gs[1..]));
        { ChunkWords(gs[0]); RenderWords(gs[1..]); }
        FlatWords(gs[0]) + FlatWords(Flatten(gs[1..]));
        { FlatWordsAppend(gs[0], Flatten(gs[1..])); }
        FlatWords(gs[0] + Flatten(gs[1..]));
        FlatWords(Flatten(gs));
      }
    }
  }

  /** Word order is preserved: the words of all chunks, in order, are the words of the text. */
  lemma ChunksPreserveWords(text: string, size: int)
    ensures FlatWords(Chunks(text, size)) == Words(text)
  {
    var ss := Sentences(text);
    var gs := Pack(ss, size, []);
    calc {
      FlatWords(Chunks(text, size));
      FlatWords(Render(gs));
      { RenderWords(gs); }
      FlatWords(Flatten(gs));
      { PackFlatten(ss, size, []); assert [] + ss == ss; }
      FlatWords(ss);
      { SentencesWords(text); }
      Words(text);
    }
  }

  /** The result is never empty, and every chunk is stripped. */
  lemma ChunksShape(text: string, size: int)
    ensures |Chunks(text, size)| >= 1
    ensures forall k :: 0 <= k < |Chunks(text, size)| ==>
      var c := Chunks(text, size)[k]; c == [] || (!IsPySpace(c[0]) && !IsPySpace(c[|c| - 1]))
  {
    var gs := Groups(text, size);
    PackShape(Sentences(text), size, []);
    forall k | 0 <= k < |gs|
      ensures var c := Chunks(text, size)[k]; c == [] || (!IsPySpace(c[0]) && !IsPySpace(c[|c| - 1]))
    {
      RenderAt(gs, k);
    }
  }

  /** When the first sentence alone has `size` or more words, the first chunk is the empty
      string and that sentence opens the second chunk. */
  lemma LeadingEmptyChunk(text: string, size: int)
    requires |Words(Sentences(text)[0])| >= size
    ensures |Groups(text, size)| >= 2 && Groups(text, size)[0] == []
    ensures Groups(text, size)[1] != [] && Groups(text, size)[1][0] == Sentences(text)[0]
    ensures |Chunks(text, size)| >= 2 && Chunks(text, size)[0] == ""
  {
    var ss := Sentences(text);
    assert JoinSp([]) + ss[0] == ss[0];
    var rest := Pack(ss[1..], size, [ss[0]]);
    PackShape(ss[1..], size, [ss[0]]);
    assert Groups(text, size) == [[]] + rest;
    assert rest[0][..1] == [ss[0]];
    StripStripped("");
  }

  /** A chunk with `size` or more words holds at most one sentence; only a lone sentence may
      exceed the limit. */
  lemma BigChunkIsOneSentence(text: string, size: int, k: nat)
    requires k < |Chunks(text, size)| && |Words(Chunks(text, size)[k])| >= size
    ensures |Groups(text, size)[k]| <= 1
  {
    var gs := Groups(text, size);
    PackSmallGroups(Sentences(text), size, []);
    assert SmallGroup(gs, size, k);
    RenderAt(gs, k);
    ChunkWords(gs[k]);
  }

  /** Empty text with a positive limit gives the single chunk `""`. */
  lemma ChunksOfEmpty(size: int)
    requires size >= 1
    ensures Chunks("", size) == [""]
  {
    SentencesOfEmpty();
    assert Words("") == [];
    assert JoinSp([]) + "" == "";
    var ss := Sentences("");
    assert ss[1..] == [];
    assert [] + [ss[0]] == [""];
    assert Groups("", size) == Pack([], size, [""]) == [[""]];
    assert JoinSp([""]) == " ";
    var c := Strip(" ");
    var a :| InfixAt(" ", c, a, Py);
    assert c == "";
  }

  /** Empty text with a limit of 0 or less gives two empty chunks: the empty sentence does
      not fit, so the empty open group is closed, and the sentence's own group is kept. */
  lemma ChunksOfEmptyNoLimit(size: int)
    requires size <= 0
    ensures Chunks("", size) == ["", ""]
  {
    SentencesOfEmpty();
    assert Words("") == [];
    assert JoinSp([]) + "" == "";
    var ss := Sentences("");
    assert ss[1..] == [];
    assert Groups("", size) == [[]] + Pack([], size, [""]) == [[], [""]];
    assert JoinSp([""]) == " ";
    var c := Strip(" ");
    var a :| InfixAt(" ", c, a, Py);
    assert c == "";
    StripStripped("");
    RenderCons([], [[""]]);
    RenderCons([""], []);
  }
}

=== FILE: sentiment_timeline.dfy ===
/** The sentiment timeline chart: the points it plots, the tooltip of a hovered point, the
    colour of a point and the labels of the vertical axis. */
module SentimentTimeline {
  import opened Options
  import opened Strings

  /** One point of the timeline the chart receives, and one point it plots. */
  datatype Point = Point(time: string, sentiment: string, value: int)

  /** The plotted value of a point: negated when its sentiment is exactly "negative". */
  function Plotted(p: Point): Point {
    Point(p.time, p.sentiment, if p.sentiment == "negative" then -p.value else p.value)
  }

  /** The points the chart plots: one per input point, in order, with the time and sentiment
      copied and the value negated exactly for the points whose sentiment is "negative"
      (compared case-sensitively). */
  function ChartData(data: seq<Point>): (r: seq<Point>)
    ensures |r| == |data|
    ensures forall k :: 0 <= k < |data| ==> r[k] == Plotted(data[k])
    ensures forall k :: 0 <= k < |data| ==>
      r[k].time == data[k].time && r[k].sentiment == data[k].sentiment
      && (r[k].value == if data[k].sentiment == "negative" then -data[k].value else data[k].value)
  {
    seq(|data|, k requires 0 <= k < |data| => Plotted(data[k]))
  }

  /** Plotting twice gives back the data: the transformation is its own inverse, so no point is
      lost or changed beyond the sign of a "negative" value. */
  lemma ChartDataInvolution(data: seq<Point>)
    ensures ChartData(ChartData(data)) == data
  {
    var r := ChartData(ChartData(data));
    forall k | 0 <= k < |data| ensures r[k] == data[k] {
      assert ChartData(data)[k].sentiment == data[k].sentiment;
    }
  }

  /** Plotting a joined timeline plots each part in turn. */
  lemma ChartDataAppend(a: seq<Point>, b: seq<Point>)
    ensures ChartData(a + b) == ChartData(a) + ChartData(b)
  {
    var l := ChartData(a + b);
    var r := ChartData(a) + ChartData(b);
    forall k | 0 <= k < |a + b| ensures l[k] == r[k] {
      if k < |a| {
        assert (a + b)[k] == a[k];
      } else {
        assert (a + b)[k] == b[k - |a|];
      }
    }
  }

  /** The sentiment word of a hovered value: Positive above 50, Neutral above 0 up to 50, and
      Negative at 0 and below. */
  function TooltipSentiment(v: int): (s: string)
    ensures s == "Positive" <==> v > 50
    ensures s == "Neutral" <==> 0 < v <= 50
    ensures s == "Negative" <==> v <= 0
  {
    if v > 0 then (if v > 50 then "Positive" else "Neutral") else "Negative"
  }

  /** The colours a value is drawn in. */
  datatype Colour = Green | Red | Blue

  /** The colour of a value, for the dot and for the tooltip text alike: green above 50, red
      below 0, blue otherwise. */
  function ValueColour(v: int): (c: Colour)
    ensures c == Green <==> v > 50
    ensures c == Red <==> v < 0
    ensures c == Blue <==> 0 <= v <= 50
  {
    if v > 50 then Green else if v < 0 then Red else Blue
  }

  /** The word and the colour agree for every value except 0, which is drawn blue while its
      tooltip says Negative. */
  lemma WordAndColour(v: int)
    ensures v != 0 ==> (TooltipSentiment(v) == "Positive" <==> ValueColour(v) == Green)
    ensures v != 0 ==> (TooltipSentiment(v) == "Negative" <==> ValueColour(v) == Red)
    ensures v != 0 ==> (TooltipSentiment(v) == "Neutral" <==> ValueColour(v) == Blue)
    ensures TooltipSentiment(0) == "Negative" && ValueColour(0) == Blue
  {
  }

  /** A point whose sentiment is "negative" and whose value is not negative is plotted at or
      below 0, so its tooltip says Negative. */
  lemma NegativePointsReadNegative(data: seq<Point>, k: nat)
    requires k < |data| && data[k].sentiment == "negative" && data[k].value >= 0
    ensures TooltipSentiment(ChartData(data)[k].value) == "Negative"
  {
  }

  /** What the tooltip shows: the time, and the sentiment word in the colour of the value. */
  datatype TooltipView = TooltipView(timeLine: string, sentimentLine: string, colour: Colour)

  /** The tooltip renders only while active with at least one payload entry, and then
      describes the value of the first entry. */
  function Tooltip(active: bool, payload: Option<seq<int>>, timeLabel: string): (t: Option<TooltipView>)
    ensures t.Some? <==> active && payload.Some? && |payload.value| > 0
    ensures t.Some? ==> t.value == TooltipView("Time: " + timeLabel,
      "Sentiment: " + TooltipSentiment(payload.value[0]), ValueColour(payload.value[0]))
  {
    if active && payload.Some? && |payload.value| > 0 then
      var v := payload.value[0];
      Some(TooltipView("Time: " + timeLabel, "Sentiment: " + TooltipSentiment(v), ValueColour(v)))
    else None
  }

  /** The label of a tick of the vertical axis: "Neutral" at 0, the magnitude elsewhere. */
  function TickLabel(v: int): (s: string)
    ensures v == 0 ==> s == "Neutral"
    ensures v != 0 ==> s == NatToString(if v < 0 then -v else v)
  {
    if v == 0 then "Neutral" else NatToString(if v < 0 then -v else v)
  }

  /** The ticks of the vertical axis. */
  const Ticks := [-75, -50, -25, 0, 25, 50, 75]

  /** The axis is labelled 75, 50, 25, Neutral, 25, 50, 75 from bottom to top. */
  lemma AxisLabels()
    ensures seq(|Ticks|, i requires 0 <= i < |Ticks| => TickLabel(Ticks[i]))
      == ["75", "50", "25", "Neutral", "25", "50", "75"]
  {
    assert NatToString(75) == NatToString(7) + [Digit(5)] == "75";
    assert NatToString(50) == NatToString(5) + [Digit(0)] == "50";
    assert NatToString(25) == NatToString(2) + [Digit(5)] == "25";
  }

  /** The axis reads the same above and below 0: a tick and its opposite carry the same label,
      and only 0 is labelled "Neutral". */
  lemma TickLabelsSymmetric(v: int)
    ensures TickLabel(-v) == TickLabel(v)
    ensures TickLabel(v) == "Neutral" <==> v == 0
  {
    if v != 0 {
      var s := TickLabel(v);
      assert '0' <= s[0] <= '9' && "Neutral"[0] == 'N';
    }
  }
}

=== FILE: strings.dfy ===
/** String primitives the components rely on: trimming, substring and prefix tests,
    ASCII lower-casing, decimal rendering of integers and prefix slicing. */
module Strings {

  /** The characters JavaScript's `String.prototype.trim` removes: the ECMAScript
      WhiteSpace code points (tab, vertical tab, form feed, space, no-break space,
      byte-order mark and the other `Zs` separators) and the LineTerminators. */
  predicate IsJsSpace(c: char) {
    c == '\t' || c == '\U{B}' || c == '\U{C}' || c == ' ' || c == '\U{A0}' || c == '\U{FEFF}'
    || c == '\U{1680}' || ('\U{2000}' <= c <= '\U{200A}') || c == '\U{202F}' || c == '\U{205F}'
    || c == '\U{3000}' || c == '\n' || c == '\r' || c == '\U{2028}' || c == '\U{2029}'
  }

  /** The two white-space conventions in play: JavaScript's and Python's. */
  datatype Spaces = Js | Py

  /** Python's `str.isspace()`: the characters on which `split()` and `strip()` without
      arguments break and trim. */
  predicate IsPySpace(c: char) {
    ('\t' <= c <= '\r') || ('\U{1C}' <= c <= '\U{1F}') || c == ' ' || c == '\U{85}' || c == '\U{A0}'
    || c == '\U{1680}' || ('\U{2000}' <= c <= '\U{200A}') || c == '\U{2028}' || c == '\U{2029}'
    || c == '\U{202F}' || c == '\U{205F}' || c == '\U{3000}'
  }

  /** `c` is white space under convention `ws`. */
  predicate IsSpace(ws: Spaces, c: char) {
    match ws
    case Js => IsJsSpace(c)
    case Py => IsPySpace(c)
  }

  /** `s` with its leading characters that satisfy `ws` removed. */
  function TrimLeft(s: string, ws: Spaces): (r: string)
    ensures |r| <= |s| && r == s[|s| - |r|..]
    ensures r == [] || !IsSpace(ws, r[0])
    ensures forall i :: 0 <= i < |s| - |r| ==> IsSpace(ws, s[i])
  {
    if s != [] && IsSpace(ws, s[0]) then TrimLeft(s[1..], ws) else s
  }

  /** `s` with its trailing characters that satisfy `ws` removed. */
  function TrimRight(s: string, ws: Spaces): (r: string)
    ensures |r| <= |s| && r == s[..|r|]
    ensures r == [] || !IsSpace(ws, r[|r| - 1])
    ensures forall i :: |r| <= i < |s| ==> IsSpace(ws, s[i])
  {
    if s != [] && IsSpace(ws, s[|s| - 1]) then TrimRight(s[..|s| - 1], ws) else s
  }

  /** `r` is the infix of `s` that starts at `a`, and every character of `s` outside it satisfies `ws`. */
  predicate InfixAt(s: string, r: string, a: int, ws: Spaces) {
    0 <= a <= a + |r| <= |s| && r == s[a..a + |r|]
    && (forall i :: 0 <= i < a ==> IsSpace(ws, s[i])) && (forall i :: a + |r| <= i < |s| ==> IsSpace(ws, s[i]))
  }

  /** `s` with the `ws` characters removed from both ends: an infix of `s` with only
      `ws` characters outside it and none at its two ends. */
  function TrimBoth(s: string, ws: Spaces): (r: string)
    ensures exists a :: InfixAt(s, r, a, ws)
    ensures r == [] || (!IsSpace(ws, r[0]) && !IsSpace(ws, r[|r| - 1]))
  {
    var l := TrimLeft(s, ws);
    var r := TrimRight(l, ws);
    InfixOfSuffixPrefix(s, l, r, ws);
    r
  }

  /** A prefix `r` of a suffix `l` of `s` is an infix of `s`, with white space outside it when
      only white space was cut off at each step. */
  lemma InfixOfSuffixPrefix(s: string, l: string, r: string, ws: Spaces)
    requires |l| <= |s| && l == s[|s| - |l|..]
    requires forall i :: 0 <= i < |s| - |l| ==> IsSpace(ws, s[i])
    requires |r| <= |l| && r == l[..|r|]
    requires forall i :: |r| <= i < |l| ==> IsSpace(ws, l[i])
    ensures InfixAt(s, r, |s| - |l|, ws)
  {
    var a := |s| - |l|;
    assert r == s[a..a + |r|];
    forall i | a + |r| <= i < |s|
      ensures IsSpace(ws, s[i])
    {
      assert s[i] == l[i - a];
    }
  }

  /** JavaScript `s.trim()`. */
  function Trim(s: string): (r: string)
    ensures exists a :: InfixAt(s, r, a, Js)
    ensures r == [] || (!IsJsSpace(r[0]) && !IsJsSpace(r[|r| - 1]))
  {
    TrimBoth(s, Js)
  }

  /** `!s.trim()` in JavaScript: every character of `s` is white space, which is exactly
      when the trimmed string is the falsy empty string (`BlankIffTrimEmpty`). */
  predicate IsBlank(s: string) {
    forall i :: 0 <= i < |s| ==> IsJsSpace(s[i])
  }

  /** A string is blank exactly when trimming it leaves the empty string. */
  lemma BlankIffTrimEmpty(s: string)
    ensures IsBlank(s) <==> Trim(s) == ""
  {
    var r := Trim(s);
    var a :| InfixAt(s, r, a, Js);
    if r == [] {
      forall i | 0 <= i < |s| ensures IsJsSpace(s[i]) {
        if i >= a { assert a + |r| <= i; }
      }
    } else {
      assert s[a] == r[0] && !IsJsSpace(s[a]);
    }
  }

  /** `s.startsWith(p)` in JavaScript. */
  predicate StartsWith(s: string, p: string) {
    |p| <= |s| && s[..|p|] == p
  }

  /** A string starts with any of its prefixes. */
  lemma StartsWithAppend(p: string, t: string)
    ensures StartsWith(p + t, p)
  {
    assert (p + t)[..|p|] == p;
  }

  /** Concatenation is associative. */
  lemma AppendAssoc<T>(a: seq<T>, b: seq<T>, c: seq<T>)
    ensures a + (b + c) == (a + b) + c
  {
  }

  /** `s.includes(t)` in JavaScript, `t in s` in Python: `t` occurs in `s` at some offset. */
  predicate Contains(s: string, t: string)
    decreases |s|
  {
    StartsWith(s, t) || (s != [] && Contains(s[1..], t))
  }

  /** `t` occurs in `s` at offset `i`. */
  predicate OccursAt(s: string, t: string, i: int) {
    0 <= i <= |s| - |t| && s[i..i + |t|] == t
  }

  /** The recursive substring test agrees with "there is an offset where `t` occurs". */
  lemma {:induction false} ContainsIff(s: string, t: string)
    ensures Contains(s, t) <==> exists i :: OccursAt(s, t, i)
  {
    if StartsWith(s, t) {
      assert OccursAt(s, t, 0);
    } else if s == [] {
    } else {
      ContainsIff(s[1..], t);
      if Contains(s[1..], t) {
        var i :| OccursAt(s[1..], t, i);
        SliceOfTail(s, i, |t|);
        assert OccursAt(s, t, i + 1);
      } else {
        forall i | OccursAt(s, t, i) ensures false {
          if i > 0 {
            SliceOfTail(s, i - 1, |t|);
            assert OccursAt(s[1..], t, i - 1);
          }
        }
      }
    }
  }

  /** A slice of the tail of `s` is the slice of `s` one further on. */
  lemma SliceOfTail(s: string, i: nat, n: nat)
    requires s != [] && i + n <= |s| - 1
    ensures s[1..][i..i + n] == s[i + 1..i + 1 + n]
  {
    var u, v := s[1..][i..i + n], s[i + 1..i + 1 + n];
    forall j | 0 <= j < n ensures u[j] == v[j] {
    }
  }

  /** A witness offset is enough to make the substring test succeed. */
  lemma ContainsAt(s: string, t: string, i: nat)
    requires OccursAt(s, t, i)
    ensures Contains(s, t)
  {
    ContainsIff(s, t);
  }

  /** ASCII lower-casing of one character; every other character is kept. */
  function LowerChar(c: char): char {
    if 'A' <= c <= 'Z' then (c as int + 32) as char else c
  }

  /** `s.toLowerCase()`, restricted to the ASCII letters. */
  function Lower(s: string): (r: string)
    ensures |r| == |s|
    ensures forall i :: 0 <= i < |s| ==> r[i] == LowerChar(s[i])
  {
    seq(|s|, i requires 0 <= i < |s| => LowerChar(s[i]))
  }

  /** A decimal digit character. */
  predicate IsDigit(c: char) {
    '0' <= c <= '9'
  }

  /** The value of a digit character. */
  function DigitValue(c: char): (d: nat)
    requires IsDigit(c)
    ensures d < 10
  {
    c as int - '0' as int
  }

  /** The decimal digit for `d`. */
  function Digit(d: nat): (c: char)
    requires d < 10
    ensures IsDigit(c) && DigitValue(c) == d
  {
    ('0' as int + d) as char
  }

  /** The number a string of decimal digits denotes, most significant digit first. */
  function DigitsValue(s: string): nat
    requires forall i :: 0 <= i < |s| ==> IsDigit(s[i])
  {
    if s == [] then 0 else DigitsValue(s[..|s| - 1]) * 10 + DigitValue(s[|s| - 1])
  }

  /** The decimal numeral of `n`, as `String(n)` renders a non-negative integer: digits
      without a leading zero that read back as `n`. */
  function NatToString(n: nat): (r: string)
    ensures |r| >= 1
    ensures forall i :: 0 <= i < |r| ==> IsDigit(r[i])
    ensures r[0] == '0' ==> n == 0
    ensures n == 0 ==> r == "0"
    ensures DigitsValue(r) == n
  {
    if n < 10 then [Digit(n)]
    else
      DigitsValueAppend(NatToString(n / 10), Digit(n % 10));
      NatToString(n / 10) + [Digit(n % 10)]
  }

  /** Appending a digit to a numeral multiplies its value by ten and adds the digit. */
  lemma DigitsValueAppend(p: string, d: char)
    requires forall i :: 0 <= i < |p| ==> IsDigit(p[i])
    requires IsDigit(d)
    ensures forall i :: 0 <= i < |p + [d]| ==> IsDigit((p + [d])[i])
    ensures DigitsValue(p + [d]) == DigitsValue(p) * 10 + DigitValue(d)
  {
    assert (p + [d])[..|p|] == p;
  }

  /** The decimal numeral of an integer: a leading '-' exactly when negative, followed by the
      digits of its magnitude without a leading zero. */
  function IntToString(n: int): (r: string)
    ensures |r| >= 1
    ensures (r[0] == '-') <==> n < 0
    ensures n < 0 ==> |r| >= 2 && (forall i :: 1 <= i < |r| ==> IsDigit(r[i])) && DigitsValue(r[1..]) == -n
    ensures n >= 0 ==> (forall i :: 0 <= i < |r| ==> IsDigit(r[i])) && DigitsValue(r) == n
    ensures r[0] == '0' ==> n == 0
    ensures n < 0 ==> r[1] != '0'
  {
    if n < 0 then
      var m := NatToString(-n);
      assert ("-" + m)[1..] == m;
      "-" + m
    else NatToString(n)
  }

  /** Python `s[:n]`: the first `n` characters, or all of `s` when it is shorter. */
  function Take<T>(s: seq<T>, n: nat): (r: seq<T>)
    ensures |r| == if |s| < n then |s| else n
    ensures r == s[..|r|]
  {
    if |s| <= n then s else s[..n]
  }
}

=== FILE: video_analyzer.dfy ===
/** The YouTube sentiment analyzer page: a URL is checked for a video id, the analysis
    request is posted, and its reply fills the counts, the timeline, the summary and the
    key highlights; an example URL left in session storage is picked up once. */
module VideoAnalyzer {
  import opened Options
  import opened Strings
  import opened YoutubeId

  /** One point of the analysis timeline as the backend sends it: `value`, `word` and
      `sentimiento` may be missing. */
  datatype Item = Item(time: string, value: Option<int>, word: Option<string>,
                       sentimiento: Option<string>)

  /** A key highlight: the timeline item together with its lower-cased sentiment. */
  datatype Highlight = Highlight(item: Item, sentiment: string)

  /** An item is a key highlight when its value is at least 95 or at most 25, its word is a
      string, and its sentiment, lower-cased, is one of the three Spanish labels. A missing
      value compares false with both thresholds. */
  predicate IsHighlight(it: Item)
    ensures IsHighlight(it) ==> it.value.Some? && !(25 < it.value.value < 95)
    ensures it.value == None || it.word == None || it.sentimiento == None ==> !IsHighlight(it)
  {
    it.value.Some? && (it.value.value >= 95 || it.value.value <= 25)
    && it.word.Some?
    && it.sentimiento.Some?
    && Lower(it.sentimiento.value) in {"positivo", "negativo", "neutral"}
  }

  /** The highlight made from a selected item. */
  function ToHighlight(it: Item): Highlight
    requires it.sentimiento.Some?
  {
    Highlight(it, Lower(it.sentimiento.value))
  }

  /** The key highlights: the items that pass the test, in timeline order, each with its
      lower-cased sentiment. */
  function Highlights(items: seq<Item>): (hs: seq<Highlight>)
    ensures |hs| <= |items|
    ensures forall k :: 0 <= k < |hs| ==>
      IsHighlight(hs[k].item) && hs[k].item in items && hs[k] == ToHighlight(hs[k].item)
  {
    if items == [] then []
    else if IsHighlight(items[0]) then [ToHighlight(items[0])] + Highlights(items[1..])
    else Highlights(items[1..])
  }

  /** `hs` holds the highlights made from the items of `items` at the positions `idx`. */
  ghost predicate Picks(items: seq<Item>, hs: seq<Highlight>, idx: seq<nat>) {
    |idx| == |hs|
    && forall k :: 0 <= k < |idx| ==>
         (idx[k] < |items| && IsHighlight(items[idx[k]]) && hs[k] == ToHighlight(items[idx[k]]))
  }

  /** The positions are strictly increasing. */
  ghost predicate Increasing(idx: seq<nat>) {
    forall k, j :: 0 <= k < j < |idx| ==> idx[k] < idx[j]
  }

  /** Every position whose item passes the test is listed. */
  ghost predicate Covers(items: seq<Item>, idx: seq<nat>) {
    forall i :: 0 <= i < |items| && IsHighlight(items[i]) ==> i in idx
  }

  /** `idx` lists, in increasing order, exactly the positions of `items` whose item passes the
      test, and `hs` holds the highlights made from those items. */
  ghost predicate SelectedAt(items: seq<Item>, hs: seq<Highlight>, idx: seq<nat>) {
    Picks(items, hs, idx) && Increasing(idx) && Covers(items, idx)
  }

  /** Every position moved one step to the right. */
  function Shift(idx: seq<nat>): (r: seq<nat>)
    ensures |r| == |idx| && forall k :: 0 <= k < |idx| ==> r[k] == idx[k] + 1
  {
    seq(|idx|, k requires 0 <= k < |idx| => idx[k] + 1)
  }

  /** Shifted positions stay increasing, also behind a leading 0. */
  lemma ShiftIncreasing(rest: seq<nat>)
    requires Increasing(rest)
    ensures Increasing(Shift(rest)) && Increasing([0] + Shift(rest))
  {
    var sh := Shift(rest);
    forall k, j | 0 <= k < j < |rest| + 1 ensures ([0] + sh)[k] < ([0] + sh)[j] {
      assert ([0] + sh)[j] == rest[j - 1] + 1;
      if k > 0 { assert ([0] + sh)[k] == rest[k - 1] + 1; }
    }
  }

  /** Picks from the tail of a timeline, at shifted positions, are picks from the whole. */
  lemma ShiftPicks(items: seq<Item>, hs: seq<Highlight>, rest: seq<nat>)
    requires items != [] && Picks(items[1..], hs, rest)
    ensures Picks(items, hs, Shift(rest))
    ensures IsHighlight(items[0]) ==> Picks(items, [ToHighlight(items[0])] + hs, [0] + Shift(rest))
  {
    var sh := Shift(rest);
    forall k | 0 <= k < |sh| ensures items[sh[k]] == items[1..][rest[k]] {
    }
    if IsHighlight(items[0]) {
      var hs' := [ToHighlight(items[0])] + hs;
      var idx := [0] + sh;
      forall k | 0 <= k < |idx|
        ensures idx[k] < |items| && IsHighlight(items[idx[k]]) && hs'[k] == ToHighlight(items[idx[k]])
      {
        if k > 0 {
          assert idx[k] == sh[k - 1] && hs'[k] == hs[k - 1];
        }
      }
    }
  }

  /** A cover of the tail, shifted, covers the whole once the first position is added when its
      item passes the test. */
  lemma ShiftCovers(items: seq<Item>, rest: seq<nat>)
    requires items != [] && Covers(items[1..], rest)
    ensures !IsHighlight(items[0]) ==> Covers(items, Shift(rest))
    ensures Covers(items, [0] + Shift(rest))
  {
    var sh := Shift(rest);
    forall i | 1 <= i < |items| && IsHighlight(items[i]) ensures i in sh {
      assert items[i] == items[1..][i - 1];
      var k :| 0 <= k < |rest| && rest[k] == i - 1;
      assert sh[k] == i;
    }
  }

  /** A selection from the tail of a timeline, shifted, is a selection from the whole timeline
      once its first item is accounted for. */
  lemma SelectCons(items: seq<Item>, rest: seq<nat>) returns (idx: seq<nat>)
    requires items != [] && SelectedAt(items[1..], Highlights(items[1..]), rest)
    ensures SelectedAt(items, Highlights(items), idx)
  {
    ShiftIncreasing(rest);
    ShiftPicks(items, Highlights(items[1..]), rest);
    ShiftCovers(items, rest);
    if IsHighlight(items[0]) {
      idx := [0] + Shift(rest);
    } else {
      idx := Shift(rest);
    }
  }

  /** The highlights are the order-preserving subsequence of the timeline made of the items
      that pass the test: none is dropped, none is added and none moves. */
  lemma {:induction false} HighlightsSelect(items: seq<Item>) returns (idx: seq<nat>)
    ensures SelectedAt(items, Highlights(items), idx)
  {
    if items == [] {
      idx := [];
    } else {
      var rest := HighlightsSelect(items[1..]);
      idx := SelectCons(items, rest);
    }
  }

  /** Selecting from a joined timeline selects from each part in turn. */
  lemma {:induction false} HighlightsAppend(a: seq<Item>, b: seq<Item>)
    ensures Highlights(a + b) == Highlights(a) + Highlights(b)
  {
    if a == [] {
      assert a + b == b;
    } else {
      assert (a + b)[0] == a[0] && (a + b)[1..] == a[1..] + b;
      HighlightsAppend(a[1..], b);
    }
  }

  /** The text shown beside a highlight: one text per label, with every other label read as
      neutral, and the three texts distinct. */
  function HighlightDescription(h: Highlight): (r: string)
    ensures h.sentiment == "positivo" <==> r == "Strong positive sentiment detected"
    ensures h.sentiment == "negativo" <==> r == "Significant negative sentiment"
    ensures h.sentiment != "positivo" && h.sentiment != "negativo" <==> r == "Neutral or mixed opinion"
  {
    if h.sentiment == "positivo" then "Strong positive sentiment detected"
    else if h.sentiment == "negativo" then "Significant negative sentiment"
    else "Neutral or mixed opinion"
  }

  /** Every highlight of a timeline carries one of the three labels, so the third description
      is shown exactly for the neutral ones. */
  lemma HighlightDescriptions(items: seq<Item>, k: nat)
    requires k < |Highlights(items)|
    ensures Highlights(items)[k].sentiment in {"positivo", "negativo", "neutral"}
    ensures HighlightDescription(Highlights(items)[k]) == "Neutral or mixed opinion"
      <==> Highlights(items)[k].sentiment == "neutral"
  {
  }

  /** The overall sentiment shown once the analysis is complete. */
  datatype Label = Positive | Negative | Neutral

  /** The percentage a label stands for. */
  function Share(l: Label, positive: int, negative: int, neutral: int): int {
    match l
    case Positive => positive
    case Negative => negative
    case Neutral => neutral
  }

  /** The order in which ties are broken. */
  function Rank(l: Label): nat {
    match l
    case Positive => 0
    case Negative => 1
    case Neutral => 2
  }

  /** Positive when the positive share is at least both others, else Negative when the
      negative share is, else Neutral. */
  function OverallLabel(positive: int, negative: int, neutral: int): (l: Label)
    ensures Share(l, positive, negative, neutral) >= positive
    ensures Share(l, positive, negative, neutral) >= negative
    ensures Share(l, positive, negative, neutral) >= neutral
  {
    if positive >= negative && positive >= neutral then Positive
    else if negative >= positive && negative >= neutral then Negative
    else Neutral
  }

  /** The label is a largest share, and among the labels with that share the first in the
      order Positive, Negative, Neutral. */
  lemma OverallLabelIsFirstMaximum(positive: int, negative: int, neutral: int)
    ensures var o := OverallLabel(positive, negative, neutral);
      forall l :: Share(l, positive, negative, neutral) <= Share(o, positive, negative, neutral)
    ensures var o := OverallLabel(positive, negative, neutral);
      forall l :: Share(l, positive, negative, neutral) == Share(o, positive, negative, neutral)
        ==> Rank(o) <= Rank(l)
  {
  }

  /** The analysis request as it settles: it threw (transport failure or a body that is not
      JSON), or a JSON body arrived, whatever the status, with its optional fields. */
  datatype AnalysisReply =
    | AnalysisThrown
    | AnalysisBody(positive: Option<int>, negative: Option<int>, neutral: Option<int>,
                   timeline: Option<seq<Item>>, resumen: Option<string>)

  const NoSummary := "Sin resumen disponible"
  const InvalidUrlAlert := "Please enter a valid YouTube URL"
  const ErrorAlert := "Error analyzing video. Please try again."

  /** The summary shown: the `resumen` field unless it is missing or empty. */
  function SummaryOf(resumen: Option<string>): (s: string)
    ensures s != ""
    ensures resumen.Some? && resumen.value != "" ==> s == resumen.value
    ensures resumen == None || resumen.value == "" ==> s == NoSummary
  {
    if resumen.Some? && resumen.value != "" then resumen.value else NoSummary
  }

  /** What a submit of the form does. */
  datatype SubmitOutcome =
    | Ignored              // blank URL or an analysis running: nothing happens
    | InvalidUrl           // no video id: the alert is shown and nothing else happens
    | Posted(url: string, thumbnail: string)  // the request is posted with this URL

  /** What the submit handler decides for the URL in the box and the running flag: a blank URL
      or a running analysis is ignored, a URL without a video id is refused with an alert, and
      any other URL is posted as it is, with the thumbnail address of its id. */
  function Decide(url: string, analyzing: bool): (o: SubmitOutcome)
    ensures o == Ignored <==> IsBlank(url) || analyzing
    ensures o == InvalidUrl <==> !IsBlank(url) && !analyzing && ExtractYoutubeId(url) == None
    ensures o.Posted? ==> (o.url == url && ExtractYoutubeId(url).Some?
      && o.thumbnail == ThumbnailUrl(ExtractYoutubeId(url).value))
  {
    if IsBlank(url) || analyzing then Ignored
    else match ExtractYoutubeId(url)
      case None => InvalidUrl
      case Some(id) => Posted(url, ThumbnailUrl(id))
  }

  /** The analyzer page's state; `pending` stands for the analysis request in flight. The
      `loading` state of the page is never set, so it is not part of the model. */
  class Analyzer {
    var url: string
    var isAnalyzing: bool
    var videoThumbnail: string
    var analysisProgress: int
    var analysisComplete: bool
    var videoTitle: string
    var positive: int
    var negative: int
    var neutral: int
    var timeline: seq<Item>
    var summary: string
    var keyHighlights: seq<Highlight>
    var pending: bool

    /** The form is shown and the page is analyzing only while a request is in flight; a
        completed analysis is not running. */
    ghost predicate Valid()
      reads this
    {
      (isAnalyzing ==> pending) && !(isAnalyzing && analysisComplete)
    }

    constructor()
      ensures Valid()
      ensures url == "" && !isAnalyzing && videoThumbnail == "" && analysisProgress == 0
      ensures !analysisComplete && videoTitle == "" && positive == 0 && negative == 0 && neutral == 0
      ensures timeline == [] && summary == "" && keyHighlights == [] && !pending
    {
      url := "";
      isAnalyzing := false;
      videoThumbnail := "";
      analysisProgress := 0;
      analysisComplete := false;
      videoTitle := "";
      positive := 0;
      negative := 0;
      neutral := 0;
      timeline := [];
      summary := "";
      keyHighlights := [];
      pending := false;
    }

    /** The form, with its URL box, is shown only before an analysis starts. */
    predicate FormShown()
      reads this
    {
      !analysisComplete && !isAnalyzing
    }

    /** The overall label, shown only once the analysis is complete. */
    function ShownLabel(): (l: Option<Label>)
      reads this
      ensures l.Some? <==> analysisComplete
      ensures l.Some? ==> l.value == OverallLabel(positive, negative, neutral)
    {
      if analysisComplete then Some(OverallLabel(positive, negative, neutral)) else None
    }

    /** The example URL the examples page left in session storage is copied into the URL box
        once, on mount, and removed; an absent or empty entry changes nothing. */
    method ConsumeExampleUrl(storage: map<string, string>) returns (storage': map<string, string>)
      requires Valid()
      modifies this`url
      ensures Valid()
      ensures "exampleUrl" in storage && storage["exampleUrl"] != "" ==>
        (url == storage["exampleUrl"] && storage' == storage - {"exampleUrl"})
      ensures !("exampleUrl" in storage && storage["exampleUrl"] != "") ==>
        (url == old(url) && storage' == storage)
      ensures "exampleUrl" !in storage' || storage'["exampleUrl"] == ""
      ensures isAnalyzing == old(isAnalyzing) && analysisComplete == old(analysisComplete)
      ensures videoThumbnail == old(videoThumbnail) && analysisProgress == old(analysisProgress)
      ensures pending == old(pending)
    {
      storage' := storage;
      if "exampleUrl" in storage && storage["exampleUrl"] != "" {
        url := storage["exampleUrl"];
        storage' := storage - {"exampleUrl"};
      }
    }

    /** Typing into the URL box, which exists only while the form is shown. */
    method SetUrl(text: string)
      requires Valid()
      modifies this`url
      ensures Valid()
      ensures url == (if old(FormShown()) then text else old(url))
      ensures isAnalyzing == old(isAnalyzing) && analysisComplete == old(analysisComplete)
      ensures videoThumbnail == old(videoThumbnail) && analysisProgress == old(analysisProgress)
      ensures pending == old(pending)
    {
      if FormShown() {
        url := text;
      }
    }

    /** Submitting the form. The analysis starts, as `Decide` says, only for a URL that is
        not blank and has a video id while no analysis runs; it sets the thumbnail of that id,
        marks the analysis running and not complete at progress 10, and posts the URL.
        Otherwise nothing changes. */
    method Submit() returns (o: SubmitOutcome)
      requires Valid()
      modifies this`videoThumbnail, this`isAnalyzing, this`analysisProgress, this`analysisComplete, this`pending
      ensures Valid()
      ensures o == Decide(url, old(isAnalyzing))
      ensures !o.Posted? ==> unchanged(this)
      ensures o.Posted? ==> (videoThumbnail == o.thumbnail
        && isAnalyzing && analysisProgress == 10 && !analysisComplete && pending)
    {
      o := Decide(url, isAnalyzing);
      if o.Posted? {
        videoThumbnail := o.thumbnail;
        isAnalyzing := true;
        analysisProgress := 10;
        analysisComplete := false;
        pending := true;
      }
    }

    /** The analysis request settles. A body fills the counts (0 when missing), the timeline
        ([] when missing), the summary and the highlights of that timeline, and completes the
        analysis at progress 100; a thrown request raises the alert, stops the analysis and
        sets the progress back to 0, leaving everything else as it was. */
    method OnReply(reply: AnalysisReply) returns (alert: Option<string>)
      requires Valid() && pending
      modifies this`positive, this`negative, this`neutral, this`timeline, this`summary
      modifies this`keyHighlights, this`analysisProgress, this`isAnalyzing, this`analysisComplete, this`pending
      ensures Valid() && !pending && !isAnalyzing
      ensures reply.AnalysisBody? ==> (alert == None
        && positive == reply.positive.GetOr(0) && negative == reply.negative.GetOr(0)
        && neutral == reply.neutral.GetOr(0) && timeline == reply.timeline.GetOr([])
        && summary == SummaryOf(reply.resumen) && keyHighlights == Highlights(timeline)
        && analysisProgress == 100 && analysisComplete)
      ensures reply.AnalysisThrown? ==> (alert == Some(ErrorAlert) && analysisProgress == 0
        && analysisComplete == old(analysisComplete)
        && positive == old(positive) && negative == old(negative) && neutral == old(neutral)
        && timeline == old(timeline) && summary == old(summary) && keyHighlights == old(keyHighlights))
    {
      if reply.AnalysisThrown? {
        Fail();
        alert := Some(ErrorAlert);
      } else {
        Complete(reply.positive.GetOr(0), reply.negative.GetOr(0), reply.neutral.GetOr(0),
          reply.timeline.GetOr([]), SummaryOf(reply.resumen));
        alert := None;
      }
    }

    /** The body of a settled request is shown: the analysis is complete at progress 100. */
    method Complete(p: int, n: int, u: int, t: seq<Item>, s: string)
      requires Valid() && pending
      modifies this`positive, this`negative, this`neutral, this`timeline, this`summary
      modifies this`keyHighlights, this`analysisProgress, this`isAnalyzing, this`analysisComplete, this`pending
      ensures Valid() && !pending && !isAnalyzing
      ensures positive == p && negative == n && neutral == u && timeline == t && summary == s
      ensures keyHighlights == Highlights(t) && analysisProgress == 100 && analysisComplete
    {
      positive, negative, neutral := p, n, u;
      timeline, summary := t, s;
      keyHighlights := Highlights(t);
      analysisProgress := 100;
      isAnalyzing, analysisComplete, pending := false, true, false;
    }

    /** A thrown request stops the analysis and sets the progress back to 0. */
    method Fail()
      requires Valid() && pending
      modifies this`isAnalyzing, this`analysisProgress, this`pending
      ensures Valid() && !pending && !isAnalyzing && analysisProgress == 0
    {
      isAnalyzing, analysisProgress, pending := false, 0, false;
    }

    /** "Analyze another video": the URL, title and thumbnail are cleared, both flags lowered
        and the progress set to 0; the counts, timeline, summary and highlights of the last
        analysis are kept. */
    method Reset()
      requires Valid()
      modifies this
      ensures Valid()
      ensures url == "" && videoTitle == "" && videoThumbnail == ""
      ensures !isAnalyzing && !analysisComplete && analysisProgress == 0
      ensures positive == old(positive) && negative == old(negative) && neutral == old(neutral)
      ensures timeline == old(timeline) && summary == old(summary)
      ensures keyHighlights == old(keyHighlights) && pending == old(pending)
    {
      url := "";
      videoTitle := "";
      videoThumbnail := "";
      isAnalyzing := false;
      analysisComplete := false;
      analysisProgress := 0;
    }
  }
}

=== FILE: video_analyzer_panel.dfy ===
/** The mock video analyzer card: a video is chosen by file or by YouTube link, an analysis
    is simulated by a timer that fills in random shares, and the card shows an overall label
    by its own rule. */
module VideoAnalyzerPanel {
  import opened Options
  import opened Strings
  import VideoAnalyzer

  /** The three shares of the sentiment breakdown, in percent. */
  datatype Shares = Shares(positive: int, neutral: int, negative: int)

  /** The breakdown shown before any analysis. */
  const InitialShares := Shares(65, 25, 10)

  /** The shares the timer sets from three draws: `floor(random * 60) + 20`,
      `floor(random * 40) + 10` and `floor(random * 30)`, each draw being the floored product. */
  function MockShares(p: nat, u: nat, n: nat): (s: Shares)
    requires p < 60 && u < 40 && n < 30
    ensures 20 <= s.positive <= 79 && 10 <= s.neutral <= 49 && 0 <= s.negative <= 29
  {
    Shares(p + 20, u + 10, n)
  }

  /** Every breakdown the card can show lies in the ranges of the mock draws. */
  predicate InMockRange(s: Shares) {
    20 <= s.positive <= 79 && 10 <= s.neutral <= 49 && 0 <= s.negative <= 29
  }

  /** The card's overall label: Positive above 60 percent positive, else Negative above 30
      percent negative, else Neutral. */
  function PanelLabel(s: Shares): (l: VideoAnalyzer.Label)
    ensures l == VideoAnalyzer.Positive <==> s.positive > 60
    ensures l == VideoAnalyzer.Negative <==> s.positive <= 60 && s.negative > 30
    ensures l == VideoAnalyzer.Neutral <==> s.positive <= 60 && s.negative <= 30
  {
    if s.positive > 60 then VideoAnalyzer.Positive
    else if s.negative > 30 then VideoAnalyzer.Negative
    else VideoAnalyzer.Neutral
  }

  /** No breakdown the card can show is labelled Negative, since the negative share never
      exceeds 29; the initial breakdown reads Positive. */
  lemma NegativeUnreachable(s: Shares)
    requires InMockRange(s)
    ensures PanelLabel(s) != VideoAnalyzer.Negative
    ensures PanelLabel(s) == VideoAnalyzer.Positive <==> s.positive > 60
  {
  }

  /** The card and the analyzer page label the same breakdown differently: the page picks the
      largest share, the card compares against fixed thresholds. */
  lemma LabelsDiffer()
    ensures PanelLabel(Shares(50, 30, 20)) == VideoAnalyzer.Neutral
    ensures VideoAnalyzer.OverallLabel(50, 20, 30) == VideoAnalyzer.Positive
    ensures PanelLabel(InitialShares) == VideoAnalyzer.OverallLabel(65, 10, 25)
  {
  }

  /** The card's state; `timers` counts the simulated analyses whose timer has not fired. */
  class Panel {
    var videoSource: Option<string>
    var youtubeUrl: string
    var fileName: string
    var isAnalyzing: bool
    var analysisComplete: bool
    var shares: Shares
    var timers: nat

    /** A running analysis has a pending timer and a chosen video (the choice is hidden), and
        the breakdown is always in the mock ranges. */
    ghost predicate Valid()
      reads this
    {
      (isAnalyzing ==> timers > 0 && !ChoiceShown()) && InMockRange(shares)
    }

    constructor()
      ensures Valid()
      ensures videoSource == None && youtubeUrl == "" && fileName == ""
      ensures !isAnalyzing && !analysisComplete && shares == InitialShares && timers == 0
    {
      videoSource := None;
      youtubeUrl := "";
      fileName := "";
      isAnalyzing := false;
      analysisComplete := false;
      shares := InitialShares;
      timers := 0;
    }

    /** The choice of a video (the two tabs) is shown only while neither a file nor a link is set. */
    predicate ChoiceShown()
      reads this
    {
      fileName == "" && youtubeUrl == ""
    }

    /** The label shown: the results are part of the view of a chosen video, so the label
        appears only when the choice is hidden and an analysis is complete. */
    function ShownLabel(): (l: Option<VideoAnalyzer.Label>)
      reads this
      ensures l.Some? <==> analysisComplete && !ChoiceShown()
      ensures l.Some? ==> l.value == PanelLabel(shares)
    {
      if !ChoiceShown() && analysisComplete then Some(PanelLabel(shares)) else None
    }

    /** The card never shows the Negative label. */
    lemma NeverNegative()
      requires Valid()
      ensures ShownLabel() != Some(VideoAnalyzer.Negative)
    {
      NegativeUnreachable(shares);
    }

    /** "Analyze another": both flags are lowered and nothing else changes. */
    method ResetAnalysis()
      requires Valid()
      modifies this
      ensures Valid()
      ensures !isAnalyzing && !analysisComplete
      ensures videoSource == old(videoSource) && youtubeUrl == old(youtubeUrl) && fileName == old(fileName)
      ensures shares == old(shares) && timers == old(timers)
    {
      analysisComplete := false;
      isAnalyzing := false;
    }

    /** A file chosen in the file input: its name is kept and the flags are lowered; when no
        file was chosen nothing changes. */
    method UploadFile(file: Option<string>)
      requires Valid()
      modifies this
      ensures Valid()
      ensures file.Some? ==> (fileName == file.value && !isAnalyzing && !analysisComplete)
      ensures file == None ==> (fileName == old(fileName) && isAnalyzing == old(isAnalyzing)
        && analysisComplete == old(analysisComplete))
      ensures videoSource == old(videoSource) && youtubeUrl == old(youtubeUrl)
      ensures shares == old(shares) && timers == old(timers)
    {
      if file.Some? {
        ResetAnalysis();
        fileName := file.value;
      }
    }

    /** Typing in the link box, which is part of the video choice. */
    method SetYoutubeUrl(text: string)
      requires Valid()
      modifies this
      ensures Valid()
      ensures youtubeUrl == (if old(ChoiceShown()) then text else old(youtubeUrl))
      ensures videoSource == old(videoSource) && fileName == old(fileName)
      ensures isAnalyzing == old(isAnalyzing) && analysisComplete == old(analysisComplete)
      ensures shares == old(shares) && timers == old(timers)
    {
      if ChoiceShown() {
        youtubeUrl := text;
      }
    }

    /** Submitting the link: for a link that is not blank the flags are lowered; a blank link
        changes nothing. */
    method SubmitYoutube()
      requires Valid()
      modifies this
      ensures Valid()
      ensures !IsBlank(old(youtubeUrl)) ==> !isAnalyzing && !analysisComplete
      ensures IsBlank(old(youtubeUrl)) ==>
        isAnalyzing == old(isAnalyzing) && analysisComplete == old(analysisComplete)
      ensures videoSource == old(videoSource) && youtubeUrl == old(youtubeUrl) && fileName == old(fileName)
      ensures shares == old(shares) && timers == old(timers)
    {
      if !IsBlank(youtubeUrl) {
        ResetAnalysis();
      }
    }

    /** "Analyze sentiment": the analysis runs and a timer is set. The button exists only in
        the view of a chosen video, before any analysis runs or completes. */
    method StartAnalysis()
      requires Valid() && !ChoiceShown() && !isAnalyzing && !analysisComplete
      modifies this
      ensures Valid()
      ensures isAnalyzing && timers == old(timers) + 1
      ensures analysisComplete == old(analysisComplete) && shares == old(shares)
      ensures videoSource == old(videoSource) && youtubeUrl == old(youtubeUrl) && fileName == old(fileName)
    {
      isAnalyzing := true;
      timers := timers + 1;
    }

    /** A pending timer fires with the three random draws: the analysis stops, is complete,
        and shows the mock breakdown, whatever happened to the video in the meantime. */
    method TimerFires(p: nat, u: nat, n: nat)
      requires Valid() && timers > 0
      requires p < 60 && u < 40 && n < 30
      modifies this
      ensures Valid()
      ensures !isAnalyzing && analysisComplete && shares == MockShares(p, u, n)
      ensures timers == old(timers) - 1
      ensures videoSource == old(videoSource) && youtubeUrl == old(youtubeUrl) && fileName == old(fileName)
    {
      isAnalyzing := false;
      analysisComplete := true;
      shares := MockShares(p, u, n);
      timers := timers - 1;
    }

    /** The trash button: the video, the file name and the link are cleared and both flags
        lowered. The button is disabled while an analysis runs. */
    method ClearVideo()
      requires Valid() && !isAnalyzing
      modifies this
      ensures Valid()
      ensures videoSource == None && fileName == "" && youtubeUrl == ""
      ensures !isAnalyzing && !analysisComplete
      ensures shares == old(shares) && timers == old(timers)
    {
      videoSource := None;
      fileName := "";
      youtubeUrl := "";
      analysisComplete := false;
      isAnalyzing := false;
    }
  }
}

=== FILE: youtube_id.dfy ===
/** The video-id extraction of the analyzer: the pattern
    `^.*(youtu.be\/|v\/|u\/\w\/|embed\/|watch\?v=|&v=)([^#&?]*).*` applied to a URL, and the
    captured id kept only when it is exactly 11 characters long. */
module YoutubeId {
  import opened Options
  import opened Strings

  /** The characters `.` does not match: the ECMAScript line terminators. */
  predicate IsLineTerminator(c: char) {
    c == '\n' || c == '\r' || c == '\U{2028}' || c == '\U{2029}'
  }

  /** `\w`: ASCII letters, digits and the underscore. */
  predicate IsWordChar(c: char) {
    ('a' <= c <= 'z') || ('A' <= c <= 'Z') || ('0' <= c <= '9') || c == '_'
  }

  /** The characters that end the captured id: `[^#&?]` excludes them. */
  predicate IsIdBreak(c: char) {
    c == '#' || c == '&' || c == '?'
  }

  // ---------------------------------------------------------------------------
  // What the pattern means

  /** `^.*` can stop at `p`: no line terminator comes before it. */
  ghost predicate ValidPrefix(s: string, p: int) {
    0 <= p <= |s| && forall i :: 0 <= i < p ==> !IsLineTerminator(s[i])
  }

  /** One of the six alternatives of the marker group matches at `p` with length `m`. */
  ghost predicate AltMatches(s: string, p: int, m: int) {
    0 <= p && p + m <= |s|
    && ((m == 9 && s[p..p + 5] == "youtu" && !IsLineTerminator(s[p + 5]) && s[p + 6..p + 9] == "be/")
        || (m == 2 && s[p..p + 2] == "v/")
        || (m == 4 && s[p] == 'u' && s[p + 1] == '/' && IsWordChar(s[p + 2]) && s[p + 3] == '/')
        || (m == 6 && s[p..p + 6] == "embed/")
        || (m == 8 && s[p..p + 8] == "watch?v=")
        || (m == 3 && s[p..p + 3] == "&v="))
  }

  /** The pattern up to the end of the marker matches with `^.*` taking `p` characters. */
  ghost predicate MarkerMatch(s: string, p: int, m: int) {
    ValidPrefix(s, p) && AltMatches(s, p, m)
  }

  /** The match the greedy `^.*` settles on: the marker that starts furthest to the right. */
  ghost predicate Chosen(s: string, p: int, m: int) {
    MarkerMatch(s, p, m) && forall q, m' :: p < q && MarkerMatch(s, q, m') ==> false
  }

  /** The end of the run of characters other than '#', '&' and '?' that starts at `i`. */
  function RunEnd(s: string, i: nat): (j: nat)
    requires i <= |s|
    ensures i <= j <= |s|
    ensures j == |s| || IsIdBreak(s[j])
    decreases |s| - i
  {
    if i < |s| && !IsIdBreak(s[i]) then RunEnd(s, i + 1) else i
  }

  /** The run contains no break. */
  lemma {:induction false} RunEndRun(s: string, i: nat)
    requires i <= |s|
    ensures forall k :: i <= k < RunEnd(s, i) ==> !IsIdBreak(s[k])
    decreases |s| - i
  {
    if i < |s| && !IsIdBreak(s[i]) {
      RunEndRun(s, i + 1);
    }
  }

  /** The second capture group, `([^#&?]*)` starting at `i`: greedy, and the trailing `.*`
      never forces it to give characters back. */
  function Group(s: string, i: nat): string
    requires i <= |s|
  {
    s[i..RunEnd(s, i)]
  }

  // ---------------------------------------------------------------------------
  // How the extraction computes it

  /** The length of the alternative that matches at `p`, tried in the pattern's order, or 0. */
  function MarkerLen(s: string, p: nat): (m: nat)
    requires p <= |s|
    ensures m > 0 ==> AltMatches(s, p, m)
  {
    if p + 9 <= |s| && s[p..p + 5] == "youtu" && !IsLineTerminator(s[p + 5]) && s[p + 6..p + 9] == "be/" then 9
    else if p + 2 <= |s| && s[p..p + 2] == "v/" then 2
    else if p + 4 <= |s| && s[p] == 'u' && s[p + 1] == '/' && IsWordChar(s[p + 2]) && s[p + 3] == '/' then 4
    else if p + 6 <= |s| && s[p..p + 6] == "embed/" then 6
    else if p + 8 <= |s| && s[p..p + 8] == "watch?v=" then 8
    else if p + 3 <= |s| && s[p..p + 3] == "&v=" then 3
    else 0
  }

  /** The alternatives begin with distinct characters, so at most one matches at a position,
      and the ordered test finds it. */
  lemma MarkerLenComplete(s: string, p: nat, m: int)
    requires p <= |s| && AltMatches(s, p, m)
    ensures MarkerLen(s, p) == m
  {
    var c := s[p];
    assert p + 5 <= |s| ==> s[p..p + 5][0] == c;
    assert p + 2 <= |s| ==> s[p..p + 2][0] == c;
    assert p + 6 <= |s| ==> s[p..p + 6][0] == c;
    assert p + 8 <= |s| ==> s[p..p + 8][0] == c;
    assert p + 3 <= |s| ==> s[p..p + 3][0] == c;
  }

  /** The length of the longest prefix without a line terminator. */
  function FirstLineTerminator(s: string): (n: nat)
    ensures n <= |s|
    ensures n < |s| ==> IsLineTerminator(s[n])
  {
    if s == [] || IsLineTerminator(s[0]) then 0 else 1 + FirstLineTerminator(s[1..])
  }

  /** No line terminator comes before the first one. */
  lemma {:induction false} FirstLineTerminatorFirst(s: string)
    ensures forall i :: 0 <= i < FirstLineTerminator(s) ==> !IsLineTerminator(s[i])
  {
    if s != [] && !IsLineTerminator(s[0]) {
      FirstLineTerminatorFirst(s[1..]);
      forall i | 0 < i < FirstLineTerminator(s) ensures !IsLineTerminator(s[i]) {
        assert s[i] == s[1..][i - 1];
      }
    }
  }

  /** The right-most position at or before `p` where some alternative matches: the
      backtracking of `^.*`, which gives back one character at a time. */
  function FindMarker(s: string, p: nat): (r: Option<nat>)
    requires p <= |s|
    ensures r.Some? ==> r.value <= p && MarkerLen(s, r.value) > 0
  {
    if MarkerLen(s, p) > 0 then Some(p)
    else if p == 0 then None
    else FindMarker(s, p - 1)
  }

  /** The position found is the right-most one: no alternative matches after it, and none at
      all when nothing is found. */
  lemma {:induction false} FindMarkerRightmost(s: string, p: nat)
    requires p <= |s|
    ensures FindMarker(s, p).Some? ==> forall q :: FindMarker(s, p).value < q <= p ==> MarkerLen(s, q) == 0
    ensures FindMarker(s, p) == None ==> forall q :: 0 <= q <= p ==> MarkerLen(s, q) == 0
  {
    if MarkerLen(s, p) == 0 && p > 0 {
      FindMarkerRightmost(s, p - 1);
    }
  }

  /** `extractYoutubeId`: the captured id when the pattern matches and the id has exactly 11
      characters, otherwise nothing. */
  function ExtractYoutubeId(url: string): (r: Option<string>)
    ensures r.Some? ==> |r.value| == 11
    ensures r.Some? ==> forall k :: 0 <= k < |r.value| ==> !IsIdBreak(r.value[k])
  {
    match FindMarker(url, FirstLineTerminator(url))
    case None => None
    case Some(p) =>
      var i := p + MarkerLen(url, p);
      RunEndRun(url, i);
      var id := Group(url, i);
      if |id| == 11 then Some(id) else None
  }

  /** A match of the marker starts no later than the first line terminator. */
  lemma MatchBeforeTerminator(url: string, q: int, m: int)
    requires MarkerMatch(url, q, m)
    ensures q <= FirstLineTerminator(url)
  {
  }

  /** When the backtracking finds no marker, the pattern does not match. */
  lemma NoMarkerNoMatch(url: string)
    requires FindMarker(url, FirstLineTerminator(url)) == None
    ensures forall p, m :: !MarkerMatch(url, p, m)
  {
    FindMarkerRightmost(url, FirstLineTerminator(url));
    forall p, m | MarkerMatch(url, p, m) ensures false {
      MatchBeforeTerminator(url, p, m);
      MarkerLenComplete(url, p, m);
    }
  }

  /** When the backtracking finds a marker, that marker is the match the pattern settles on,
      and the only one. */
  lemma MarkerIsChosen(url: string, p: nat)
    requires FindMarker(url, FirstLineTerminator(url)) == Some(p)
    ensures Chosen(url, p, MarkerLen(url, p))
    ensures forall p', m' :: Chosen(url, p', m') ==> p' == p && m' == MarkerLen(url, p)
  {
    var n := FirstLineTerminator(url);
    var m := MarkerLen(url, p);
    FirstLineTerminatorFirst(url);
    FindMarkerRightmost(url, n);
    assert MarkerMatch(url, p, m);
    forall q, m' | p < q && MarkerMatch(url, q, m') ensures false {
      MatchBeforeTerminator(url, q, m');
      MarkerLenComplete(url, q, m');
    }
    forall p', m' | Chosen(url, p', m') ensures p' == p && m' == m {
      MarkerLenComplete(url, p', m');
    }
  }

  /** The extraction agrees with the pattern: it yields an id exactly when the greedy match
      exists and its captured group has 11 characters, and the id is that group; an id never
      contains '#', '&' or '?'. */
  lemma ExtractYoutubeIdSpec(url: string)
    ensures ExtractYoutubeId(url).Some? <==> exists p, m :: Chosen(url, p, m) && |Group(url, p + m)| == 11
    ensures forall p, m :: Chosen(url, p, m) && ExtractYoutubeId(url).Some? ==>
      ExtractYoutubeId(url).value == Group(url, p + m)
    ensures ExtractYoutubeId(url).Some? ==> forall k :: 0 <= k < 11 ==> !IsIdBreak(ExtractYoutubeId(url).value[k])
  {
    match FindMarker(url, FirstLineTerminator(url))
    case None =>
      NoMarkerNoMatch(url);
    case Some(p) =>
      MarkerIsChosen(url, p);
      RunEndRun(url, p + MarkerLen(url, p));
  }

  /** An alternative can only begin at a 'y', 'u', 'e' or '&', at a 'v' followed by '/', or
      at a 'w' followed by 'a'. */
  lemma MarkerLenStart(s: string, p: nat)
    requires p <= |s| && MarkerLen(s, p) > 0
    ensures p + 2 <= |s|
    ensures s[p] == 'y' || (s[p] == 'v' && s[p + 1] == '/') || s[p] == 'u' || s[p] == 'e'
      || (s[p] == 'w' && s[p + 1] == 'a') || s[p] == '&'
  {
    var m := MarkerLen(s, p);
    if m == 9 {
      assert s[p..p + 5][0] == s[p];
    } else if m == 2 {
      assert s[p..p + 2][0] == s[p] && s[p..p + 2][1] == s[p + 1];
    } else if m == 6 {
      assert s[p..p + 6][0] == s[p];
    } else if m == 8 {
      assert s[p..p + 8][0] == s[p] && s[p..p + 8][1] == s[p + 1];
    } else if m == 3 {
      assert s[p..p + 3][0] == s[p];
    }
  }

  /** The backtracking stops at `q` when an alternative matches there and none matches between
      `q` and `p`. */
  lemma {:induction false} FindMarkerSkip(s: string, p: nat, q: nat)
    requires q <= p <= |s| && MarkerLen(s, q) > 0
    requires forall k :: q < k <= p ==> MarkerLen(s, k) == 0
    ensures FindMarker(s, p) == Some(q)
    decreases p
  {
    if p > q {
      FindMarkerSkip(s, p - 1, q);
    }
  }

  /** The extraction yields the 11 characters that follow the right-most marker of a URL
      without line terminators, when they run to the end of the URL or to a break. */
  lemma ExtractFrom(s: string, p: nat, m: nat, e: nat, id: string)
    requires FirstLineTerminator(s) == |s| && FindMarker(s, |s|) == Some(p)
    requires MarkerLen(s, p) == m && p + m <= e <= |s| && RunEnd(s, p + m) == e
    requires s[p + m..e] == id && |id| == 11
    ensures ExtractYoutubeId(s) == Some(id)
  {
  }

  /** The address of the thumbnail YouTube serves for a video id. */
  function ThumbnailUrl(id: string): (u: string)
    ensures StartsWith(u, "https://img.youtube.com/vi/")
    ensures |u| == 27 + |id| + 14 && u[27..27 + |id|] == id && u[27 + |id|..] == "/mqdefault.jpg"
  {
    "https://img.youtube.com/vi/" + id + "/mqdefault.jpg"
  }
}
